=== FILE: README.md ===
# Narrative state engine of a text adventure, in Dafny

This project models the core of a console text adventure. The core has three parts:

- **The data model.** A player sheet holds name, level, health, experience, inventory, skills and free-form attributes. A story state holds the current scene, an append-only history of visited scenes, story flags, branch counters and the ending.
- **The game-state manager.** It pairs one player with one story and delegates to them.
- **The turn logic.** The preset story engine advances a step counter and picks scenes. The game loop resolves the player's chosen option, applies its event tag (`heal:N`, `damage:N`, `add_item:X`, `remove_item:X`, `add_experience:N`), asks the engine for the next scene, commits it and settles the ending.

Everything is pure. Each mutating Python method becomes a function from the old value to the new one. Dictionaries that are saved and loaded become a small `Json` datatype. Python's built-in behaviour is written out explicitly in `builtins.dfy`:

- `list.index`, `list.remove`, `str.startswith`, substring `in`;
- `split(":")` and `split(":", 1)`;
- `isdigit`, `int()` and `str()` on integers.

The clock is a parameter. A timestamp is an opaque value that carries its ISO text.

Files:

- `wrappers.dfy`: `Option`.
- `builtins.dfy`: the Python string and list built-ins.
- `json.dfy`: dictionary values and the list/map encoders with their round trips.
- `player.dfy`: `models/player.py`.
- `story_state.dfy`: `models/story_state.py`.
- `state_manager.dfy`: the in-memory part of `state_manager.py`.
- `game_engine.dfy`: `game_engine.py`.
- `game_loop.dfy`: one turn of `game_loop` in `main.py`.

Three behaviours of the code that a reader might not expect. The model follows the code.

- **Where the choice lands.** `update_story` records the choice *before* `add_scene` archives the current scene. The choice therefore lands on the node that was last in history before the turn, and the scene it was made in is archived with no choice. This is stated by `StateManager.UpdateStory`, `StateManager.SampleFlow` and `GameLoop.ChoiceLandsOnEarlierNode`.
- **The default scene is archived.** A new story's current scene is `scene_0` with no description (models/story_state.py:39). `start_new_game` goes through `add_scene`, which archives any current scene with a non-empty id (models/story_state.py:51). A new game therefore starts with one history node, the empty `scene_0` (`GameEngine.NewGameOpening`), and its first turn adds the opening scene as a second node.
- **Death needs an event or a damaged sheet.** The death check runs after the engine has granted the ending's experience. Leveling up refills health, so a player killed by the last turn's event can be revived by that experience and end well (`GameLoop.EndingExperienceRevives`). A death before the last step ends the story while the scene's three options are still current (`GameLoop.DeathLeavesOptions`). Both situations need the chosen option to carry an event tag, and only a view with `option_events` supplies one. The console loop reads `get_current_state`, which has no such entry, so no event fires there (`GameLoop.LoopFiresNoEvent`). There, a sheet with 0 < health <= max_health never triggers the death check (`GameLoop.ConsoleTurnKeepsAlive`); only a loaded sheet outside those bounds can die there.

## Model

| member | source | states |
|---|---|---|
| PlayerModel.NewPlayer | models/player.py:9-16 | a new player has the given name, level 1, 0 experience, full health of 100, and empty inventory, skills and attributes |
| PlayerModel.AddItem | models/player.py:18-20 | the item is appended at the end; the earlier items and all other fields are unchanged |
| PlayerModel.HasItem | models/player.py:29-31 | true exactly when some inventory slot holds the item |
| PlayerModel.RemoveItem | models/player.py:22-27 | answers true iff the item is held; if so, removes exactly its first occurrence (multiset minus one copy); if not, the player is unchanged; other fields untouched |
| PlayerModel.AddThenRemove | models/player.py:18-27 | removing an item just added succeeds and restores the inventory's contents; if the item was not held before, the player comes back exactly |
| PlayerModel.LevelUp | models/player.py:41-45 | one level more, 10 more max health, health refilled to the new maximum, experience and identity unchanged |
| PlayerModel.LevelUpLoop | models/player.py:37-39 | the leveling loop ends below the current level's threshold; experience lost equals the sum of the thresholds passed; 10 max health per level gained; starting from level >= 1 and non-negative experience it leaves a normalised sheet |
| PlayerModel.AddExperience | models/player.py:33-39 | experience is conserved across level-ups (new experience plus thresholds passed equals old plus gain); no level-up means only experience changed; any level-up refills health |
| PlayerModel.AddExperienceSplit | models/player.py:33-39 | two gains in a row, the second non-negative, equal one gain of their sum |
| PlayerModel.AddExperienceWithinLevel | models/player.py:33-39 | a gain that stays below the current level's threshold only adds to the experience |
| PlayerModel.AddExperienceOneLevel | models/player.py:33-45 | a gain crossing exactly one threshold levels up once and keeps the surplus |
| PlayerModel.AddExperienceAllIsOneCall | models/player.py:33-39 | from a normalised sheet, a sequence of non-negative gains equals one gain of their total |
| PlayerModel.Heal | models/player.py:47-49 | health becomes the smaller of health plus amount and max health; nothing else changes |
| PlayerModel.TakeDamage | models/player.py:51-53 | health becomes the larger of 0 and health minus amount; nothing else changes |
| PlayerModel.DamageAndSurvival | models/player.py:47-57 | a player survives damage exactly when health exceeds it; damage equal to the health always kills; non-negative healing keeps a living player with positive maximum alive |
| PlayerModel.ExperienceKeepsAlive | models/player.py:33-57 | a gain of experience never kills a living player whose health is within its maximum |
| PlayerModel.DamageThenHealInBounds | models/player.py:47-53 | non-negative damage then non-negative healing keeps 0 <= health <= max health |
| PlayerModel.AddExperienceKeepsHealthInBounds | models/player.py:33-45 | leveling up never breaks 0 <= health <= max health |
| PlayerModel.FromDict | models/player.py:72-83 | a non-dictionary is rejected; a dictionary loads exactly when every key that is present has a value of the right shape; each present key gives its value and each missing key its default (name 冒险者, level 1, health and max health 100, experience 0, empty inventory, skills and attributes) |
| PlayerModel.DictRoundTrip | models/player.py:59-83 | loading a saved player gives back the same player |
| StoryModel.AddScene | models/story_state.py:48-62 | a current scene with a non-empty id is archived as one new history node with no choice; an empty id archives nothing; the given scene becomes current; flags, counters and ending unchanged |
| StoryModel.RecordChoice | models/story_state.py:64-73 | only the last history node gets the choice (if there is one); that choice's counter rises by one; every other counter is unchanged |
| StoryModel.SetFlag | models/story_state.py:75-77 | the flag reads back as the value for every default; every other flag reads as before |
| StoryModel.GetFlag | models/story_state.py:79-81 | a flag that is set gives its value; a flag that is not set gives the default |
| StoryModel.HasFlagAfterSetFlag | models/story_state.py:75-85 | after setting a flag, exactly that name is present besides the names present before; a present flag reads as its stored value |
| StoryModel.EndStory | models/story_state.py:87-90 | the story is ended with the given ending type; nothing else changes |
| StoryModel.SummaryLine | models/story_state.py:96-98 | a line is the description, followed by " (选择: c)" exactly when a non-empty choice c is recorded |
| StoryModel.TailStart | models/story_state.py:94 | the Python slice `[-m:]` keeps the last m entries (all of them when m is 0 or exceeds the length) |
| StoryModel.HistorySummary | models/story_state.py:92-99 | the last `max_entries` nodes, summarised in order; the whole history when the limit is 0 |
| StoryModel.BulletsSnoc | models/story_state.py:106-107 | one more summary line appends exactly one "- line" bullet |
| StoryModel.AppendBullets | models/story_state.py:106-107 | the loop that appends one bullet per line produces the bullets of all the lines |
| StoryModel.StoryContext | models/story_state.py:101-111 | with history requested and present: the header, one bullet per line of the five-entry summary, a blank line, then "当前情况: " and the description; otherwise just the current line; the header opens the context exactly when history is requested and non-empty |
| StoryModel.BuildStoryContext | models/story_state.py:101-111 | building the context by appending, as `get_story_context` builds it, gives exactly `StoryContext` |
| StoryModel.GoBack | models/story_state.py:113-128 | succeeds iff history is non-empty; pops the last node and makes its scene current; otherwise the story is unchanged |
| StoryModel.AddSceneThenGoBack | models/story_state.py:48-128 | when the current scene has a non-empty id, going back right after adding a scene restores the story exactly |
| StoryModel.CanGoBackAfterMoves | models/story_state.py:48-128 | after adding a scene there is somewhere to go back to exactly when the old scene had an id or history was non-empty; after going back, exactly when there were two or more nodes |
| StoryModel.NodeFromDict | models/story_state.py:25-34 | a node loads exactly when scene id, description and timestamp are present strings, options a present list of strings, and player_choice missing, null or a string; the node carries those values, and a missing player_choice gives none |
| StoryModel.NodeRoundTrip | models/story_state.py:15-34 | loading a saved node gives back the same node |
| StoryModel.DictRoundTrip | models/story_state.py:130-157 | loading a saved story state gives back the same state, history included |
| StoryModel.FromDict | models/story_state.py:143-157 | a non-dictionary is rejected; a dictionary loads exactly when every key that is present has a value of the right shape |
| StoryModel.FromDictPerKey | models/story_state.py:143-157 | in a loaded story each present key gives its value and each missing key its default: empty history, scene_0, empty description and options, no flags or counters, not ended, no ending type |
| StateManager.CreateNewGame | state_manager.py:32-35 | a fresh player with the given name and a fresh story at scene_0 with empty description and options, no history, flags or counters, not ended and no ending type |
| StateManager.UpdateStory | state_manager.py:43-50 | the old current scene is archived with no choice; a given choice lands on the node that was last before the call and is counted; an empty choice changes no counter |
| StateManager.SetStoryFlag | state_manager.py:53-56 | the flag reads back as the value through the manager for every default |
| StateManager.GetStoryFlag | state_manager.py:58-60 | a set flag gives its stored value, an unset one the default |
| StateManager.AddPlayerItem | state_manager.py:62-65 | the player then holds the item, one copy more; the story is untouched |
| StateManager.PlayerUseItem | state_manager.py:67-72 | succeeds exactly when the player holds the item, with `remove_item`'s effect |
| StateManager.PlayerGainExperience | state_manager.py:74-81 | the player gains the experience as `add_experience` does, the level never drops, a level-up refills health; inventory and story untouched |
| StateManager.GetCurrentState | state_manager.py:83-96 | the view has exactly description, options, is_end and player_status, and no option_events; the options and inventory decode back to the state's own |
| StateManager.GetStoryContext | state_manager.py:98-100 | the story context with history: it opens with the history header exactly when there is history, and with no history it is the current line alone |
| StateManager.GoBackGame | state_manager.py:106-111 | succeeds iff there is history to pop, with the story's go-back effect |
| StateManager.EndGame | state_manager.py:113-116 | the story is marked ended with the given type |
| StateManager.SampleFlow | state_manager.py:244-260 | the sample flow leaves history [scene_0 with choice 敲门, scene_1 with no choice] and counts 敲门 once |
| GameEngine.StartNewGame | game_engine.py:18-27 | the counter resets to 0; the opening scene with its description and its three options becomes current; the scene that was current is archived with no choice when its id is non-empty; flags, counters, ending and player are untouched |
| GameEngine.NewGameOpening | game_engine.py:18-27 | a new game followed by `start_new_game` has exactly one history node, the empty scene_0, and the opening scene current; the player is the fresh one and no flag is set |
| GameEngine.StepOneScene | game_engine.py:39-60 | scene_1 with three options, not an ending; an action containing 环顾四周 gives the diary/door/window options even if it also contains 呼喊; otherwise 呼喊 gives the hide/greet/weapon options; anything else gives the feign/rise/watch options; each branch carries its own description |
| GameEngine.StepTwoScene | game_engine.py:62-96 | scene_2 with three options, not an ending; the keywords are tried in the order 日记, 开门, 躲起来, and the first one the action contains picks the options; an action with none of them gets the observe/escape/stay-calm options; each branch carries its own description |
| GameEngine.ReadDiary | game_engine.py:64-68 | reading the diary appends the diary and then adds 10 experience to the player; the story changes only by read_diary set to True |
| GameEngine.NextStep | game_engine.py:29-143 | the counter rises by one; steps 1-2 give a three-option scene; from step 3 an ending with no options whose type is "good" iff the flag is truthy and the diary is held, with 50 or 20 experience; history and current scene untouched |
| GameEngine.GoodEndingStep | game_engine.py:98-125 | from step 3 on, a player who read and kept the diary gets the good ending and 50 experience, whatever the action |
| GameEngine.NeutralEndingStep | game_engine.py:98-125 | from step 3 on, every other player gets the neutral ending and 20 experience, whatever the action |
| GameEngine.DefaultUnreachable | game_engine.py:137-143 | from a non-negative counter the trailing default scene is never produced |
| GameLoop.ChosenIndex | main.py:163-169 | an input that is an option text picks its first occurrence; otherwise an all-digit input n with 1 <= n <= the option count picks n-1; nothing else picks an option |
| GameLoop.ParseTag | main.py:175-199 | a heal, damage or add_experience tag gives that event with the integer between its first and second colon, and fails exactly when that text is not an integer; an add_item or remove_item tag gives that event with everything after its prefix; any other tag has no effect |
| GameLoop.PrefixesExclusive | main.py:175-196 | no tag starts with two of the five prefixes, so the order in which they are tried never matters |
| GameLoop.TagRoundTrip | main.py:177-196 | every event with an effect, written as its tag, reads back as the same event |
| GameLoop.ApplyEvent | main.py:175-196 | heal, damage, add_item, remove_item and add_experience are the player's heal, take_damage, add_item, remove_item and add_experience with the tag's argument; an event changes only its own part of the sheet: health for heal and damage (staying in bounds for non-negative amounts; damage kills exactly when it reaches health), one more or one fewer copy for items, level and experience for experience; name, skills and attributes never change |
| GameLoop.FormattedTagApplies | main.py:172-196 | applying the tag written for an event has exactly that event's effect; `heal:N` heals the player by N |
| GameLoop.ApplyTag | main.py:175-199 | an empty tag, "none", a malformed number or an unknown prefix leaves the player unchanged; otherwise the parsed event is applied |
| GameLoop.EventNeedsChoiceAndTag | main.py:163-172 | an event runs exactly when the input picks an option by its text or its 1-based number and that position has a tag; with no tags nothing runs |
| GameLoop.PlayerAfterEvent | main.py:172-199 | an event runs only when an option was chosen and a tag exists at its position |
| GameLoop.ResolveTurn | main.py:163-216 | the event runs before the engine, the engine's scene is committed with the input as the choice, the counter rises by one, and the turn stops exactly when the player is dead; death forces the "dead" ending; otherwise the scripted ending ("normal" if untyped) is kept |
| GameLoop.GameLoopTurn | main.py:88-128 | no turn happens when the story has ended or the input is a menu entry |
| GameLoop.LoopFiresNoEvent | main.py:113-114 | the view the loop reads has no option_events, so no event ever fires in the console loop |
| GameLoop.ConsoleTurnKeepsAlive | main.py:163-216 | in the console loop, for a non-menu input while the story is open, a turn from a living sheet with health at most its maximum always happens and never stops the loop |
| GameLoop.EngineKeepsAlive | game_engine.py:62-125 | the engine's own changes to the sheet never kill a living player whose health is within its maximum |
| GameLoop.ChoiceLandsOnEarlierNode | main.py:204-209 | a committed turn archives the scene it was made in with no choice and writes the input onto the node before it |
| GameLoop.EndingTurn | main.py:172-201 | from step 3 on, the turn's ending and the experience it grants are decided on the player as the chosen option's event left it |
| GameLoop.DeathOverridesGoodEnding | main.py:211-216 | for any player with the diary read, at most 10 health, and experience that stays below the level threshold after the 50-point reward, a `damage:10` tag on the last step ends the game as "dead" although the engine produced the good ending |
| GameLoop.EventPrecedesEnding | main.py:172-201 | for any living player whose only item is the read diary and whose experience stays below the level threshold after the 20-point reward, dropping the diary through an event on the last step turns the good ending into the neutral one |
| GameLoop.DiaryPathEndsWell | game_engine.py:39-125 | looking around, then reading the diary, then any action reaches the good ending with the diary kept and 60 experience |
| GameLoop.DeathLeavesOptions | main.py:213-216 | a death before the last step ends the story with three options still current |
| GameLoop.EndingExperienceRevives | main.py:201-216 | a player killed by the last turn's event but leveled up by the ending's experience is alive again (health refilled to 110) and gets the good ending, not "dead" |

## Left out

- Saving, loading, listing, deleting and describing save files (state_manager.py:118-236) are file-system I/O and are not modelled. Only the dictionary round trips they rely on are.
- The game metadata (creation time, last update, play time, version) and `update_metadata` are not modelled. They depend on the clock and nothing in the core reads them.
- Timestamps are opaque. `datetime.fromisoformat`, which rejects malformed text, is not modelled.
- `generate_scene_with_ai`, the engine's exception fallback scene (game_engine.py:127-135) and the prompt templates are left out. They call an external text generator, and the preset engine never raises.
- The `get_story_context` call at the start of `next_step` (game_engine.py:33) is left out, because its result is never used. The manager operation it calls is modelled as `StateManager.GetStoryContext`.
- Printing, the user interface and the menu actions are left out. The menu actions are saving, showing the character sheet and returning to the menu. `GameLoopTurn` only says that a menu entry makes no story turn.
- `user_interface.py` turns an in-range number into its option text before the loop sees it. The loop's own digit branch is modelled on the raw input regardless.
- Builtins.ParseInt: Python's `isdigit` and `int()` also accept non-ASCII digits. The model accepts ASCII digits only, so a full-width or superscript digit is treated as no digit at all. `GameLoop.ChosenIndex` inherits this. A digit such as `²` passes `isdigit()` but makes `int()` raise, uncaught, which ends the console program. In the console program it raises first at user_interface.py:15-16, because `get_player_input` is always given a non-empty list, the menu entries with or without the scene's options (main.py:118-125); main.py:167 is the crash point only for a caller that skips that prompt. The crash is not modelled, and the model treats such an input as ordinary text.
- PlayerModel.FromDict: a present value of the wrong type is rejected (`None`). Python stores it as it is and fails later.
- StoryModel.FromDict: same as `PlayerModel.FromDict`: wrongly typed values are rejected, not stored.
- StoryModel.NodeFromDict: Python's `from_dict` (models/story_state.py:25-34) stores a value of any type for `scene_id`, `description`, `options` and `player_choice`; only a non-string `timestamp` raises, inside `fromisoformat`. The model loads a node only when those values are strings (a list of strings for `options`, null or a string for `player_choice`) and rejects every other type.
- Dynamic flag and attribute values are limited to None, booleans, integers and strings. Floats, lists and nested dictionaries are not modelled.
- Concurrency and the `app.py` web front end are outside the core.

=== FILE: builtins.dfy ===
/** The Python built-ins the game relies on, stated over sequences and strings:
    `list.index`, `list.remove`, `in`, `str.startswith`, `str.split`,
    `str.isdigit`, `int(str)` and `str(int)`. */
module Builtins {
  import opened Wrappers

  // ---------------------------------------------------------------------------
  // Lists
  // ---------------------------------------------------------------------------

  /** Python `s.index(x)`: the position of the first occurrence, `None` where Python raises. */
  function IndexOf<T(==)>(s: seq<T>, x: T): (r: Option<nat>)
    ensures r.None? <==> x !in s
    ensures r.Some? ==> r.value < |s| && s[r.value] == x
    ensures r.Some? ==> forall j :: 0 <= j < r.value ==> s[j] != x
  {
    if |s| == 0 then None
    else if s[0] == x then Some(0)
    else
      assert s == [s[0]] + s[1..];
      match IndexOf(s[1..], x)
      case None => None
      case Some(i) => Some(i + 1)
  }

  /** Python `s.remove(x)` when `x in s`; the list unchanged otherwise. */
  function RemoveFirst<T(==)>(s: seq<T>, x: T): (r: seq<T>)
    ensures x !in s ==> r == s
    ensures x in s ==> exists i :: 0 <= i < |s| && s[i] == x && x !in s[..i] && r == s[..i] + s[i + 1..]
    ensures multiset(r) == multiset(s) - multiset{x}
  {
    match IndexOf(s, x)
    case None => s
    case Some(i) =>
      assert s == s[..i] + [x] + s[i + 1..];
      assert x !in s[..i];
      assert multiset(s) == multiset(s[..i] + s[i + 1..]) + multiset{x} by {
        assert multiset(s) == multiset(s[..i]) + multiset{x} + multiset(s[i + 1..]);
      }
      s[..i] + s[i + 1..]
  }

  // ---------------------------------------------------------------------------
  // Strings
  // ---------------------------------------------------------------------------

  /** Python `s.startswith(prefix)`. */
  predicate StartsWith(s: string, prefix: string) {
    |prefix| <= |s| && s[..|prefix|] == prefix
  }

  /** Python `needle in hay` on strings (substring test). */
  predicate Contains(hay: string, needle: string) {
    exists i | 0 <= i <= |hay| :: StartsWith(hay[i..], needle)
  }

  /** Python `s.split(sep)` with a one-character separator: the maximal
      separator-free pieces, in order. */
  function Split(s: string, sep: char): (r: seq<string>)
    ensures |r| >= 1
    ensures sep in s <==> |r| >= 2
    ensures forall k :: 0 <= k < |r| ==> sep !in r[k]
    ensures Join(r, sep) == s
    decreases |s|
  {
    match IndexOf(s, sep)
    case None => [s]
    case Some(i) =>
      assert s == s[..i] + [sep] + s[i + 1..];
      [s[..i]] + Split(s[i + 1..], sep)
  }

  /** Python `sep.join(pieces)`, the inverse of `Split`. */
  function Join(pieces: seq<string>, sep: char): string
    requires |pieces| >= 1
  {
    if |pieces| == 1 then pieces[0] else pieces[0] + [sep] + Join(pieces[1..], sep)
  }

  /** Python `s.split(sep, 1)[1]`: everything after the first separator. */
  function AfterFirst(s: string, sep: char): (r: string)
    requires sep in s
    ensures exists i :: 0 <= i < |s| && sep !in s[..i] && s[i] == sep && r == s[i + 1..]
  {
    var i := IndexOf(s, sep).value;
    assert sep !in s[..i];
    s[i + 1..]
  }

  /** The piece after the first separator of `prefix + rest`, when the prefix
      holds exactly one separator, at its end. */
  lemma SplitAfterPrefix(prefix: string, rest: string, sep: char)
    requires |prefix| >= 1 && prefix[|prefix| - 1] == sep
    requires sep !in prefix[..|prefix| - 1]
    ensures sep in prefix + rest
    ensures AfterFirst(prefix + rest, sep) == rest
    ensures Split(prefix + rest, sep)[1] == Split(rest, sep)[0]
  {
    var s := prefix + rest;
    var n := |prefix| - 1;
    assert s[n] == sep;
    assert IndexOf(s, sep) == Some(n) by {
      forall j | 0 <= j < n ensures s[j] != sep {
        assert s[j] == prefix[..n][j];
      }
    }
    assert s[n + 1..] == rest;
  }

  // ---------------------------------------------------------------------------
  // Decimal digits
  // ---------------------------------------------------------------------------

  predicate IsAsciiDigit(c: char) {
    '0' <= c <= '9'
  }

  /** Python `s.isdigit()`, restricted to the ASCII digits. */
  predicate IsDigitString(s: string) {
    |s| > 0 && forall i :: 0 <= i < |s| ==> IsAsciiDigit(s[i])
  }

  function DigitValue(c: char): (d: int)
    requires IsAsciiDigit(c)
    ensures 0 <= d < 10
  {
    (c as int) - ('0' as int)
  }

  function DigitChar(d: int): (c: char)
    requires 0 <= d < 10
    ensures IsAsciiDigit(c) && DigitValue(c) == d
  {
    (('0' as int) + d) as char
  }

  /** Digits and `_` only. */
  predicate IsDigitGroups(s: string) {
    forall i :: 0 <= i < |s| ==> IsAsciiDigit(s[i]) || s[i] == '_'
  }

  /** The number a run of digits denotes, reading `_` as a digit-group separator. */
  function DecimalValue(s: string): (n: nat)
    requires IsDigitGroups(s)
  {
    if |s| == 0 then 0
    else if s[|s| - 1] == '_' then DecimalValue(s[..|s| - 1])
    else DecimalValue(s[..|s| - 1]) * 10 + DigitValue(s[|s| - 1])
  }

  /** The digit part accepted by Python `int(str)`: digits, with single
      underscores allowed only between two digits. */
  predicate IsDecimalBody(s: string) {
    && |s| > 0
    && IsAsciiDigit(s[0])
    && IsDigitGroups(s)
    && forall i :: 0 <= i < |s| ==>
         IsAsciiDigit(s[i]) || (s[i] == '_' && i + 1 < |s| && IsAsciiDigit(s[i + 1]))
  }

  /** Python's `str.isspace` characters, which `int(str)` skips on both sides. */
  predicate IsSpace(c: char) {
    || '\t' <= c <= '\r'
    || '\U{1C}' <= c <= ' '
    || c == '\U{85}' || c == '\U{A0}' || c == '\U{1680}'
    || '\U{2000}' <= c <= '\U{200A}'
    || c == '\U{2028}' || c == '\U{2029}' || c == '\U{202F}' || c == '\U{205F}' || c == '\U{3000}'
  }

  /** Python `s.strip()`: the slice between the leading and trailing whitespace. */
  function Strip(s: string): (r: string)
    ensures exists i, j :: 0 <= i <= j <= |s| && r == s[i..j]
    ensures |r| > 0 ==> !IsSpace(r[0]) && !IsSpace(r[|r| - 1])
    ensures |s| > 0 && !IsSpace(s[0]) && !IsSpace(s[|s| - 1]) ==> r == s
    decreases |s|
  {
    if |s| == 0 then
      assert s == s[0..0];
      s
    else if IsSpace(s[0]) then
      var r := Strip(s[1..]);
      assert s[1..] == s[1..|s|];
      SliceOfSlice(s, 1, |s|, r);
      r
    else if IsSpace(s[|s| - 1]) then
      var r := Strip(s[..|s| - 1]);
      assert s[..|s| - 1] == s[0..|s| - 1];
      SliceOfSlice(s, 0, |s| - 1, r);
      r
    else
      assert s == s[0..|s|];
      s
  }

  /** A slice of a slice of `s` is a slice of `s`. */
  lemma SliceOfSlice(s: string, a: nat, b: nat, r: string)
    requires a <= b <= |s|
    requires exists i, j :: 0 <= i <= j <= |s[a..b]| && r == s[a..b][i..j]
    ensures exists i, j :: 0 <= i <= j <= |s| && r == s[i..j]
  {
    var t := s[a..b];
    var i, j :| 0 <= i <= j <= |t| && r == t[i..j];
    assert |r| == j - i;
    forall k | 0 <= k < j - i
      ensures r[k] == s[a + i + k]
    {
      assert r[k] == t[i + k];
    }
    assert r == s[a + i..a + j];
  }

  /** Python `int(s)` in base 10: `None` where Python raises `ValueError`. */
  function ParseInt(s: string): (r: Option<int>)
    ensures r.Some? <==>
      var t := Strip(s);
      if |t| > 0 && (t[0] == '+' || t[0] == '-') then IsDecimalBody(t[1..]) else IsDecimalBody(t)
  {
    var t := Strip(s);
    if |t| > 0 && (t[0] == '+' || t[0] == '-') then
      if IsDecimalBody(t[1..]) then
        var n: int := DecimalValue(t[1..]);
        Some(if t[0] == '-' then -n else n)
      else None
    else if IsDecimalBody(t) then Some(DecimalValue(t))
    else None
  }

  /** Python `str(n)` for a non-negative `n`: decimal digits without leading zeros. */
  function ShowNat(n: nat): (r: string)
    ensures IsDigitString(r)
    ensures DecimalValue(r) == n
    ensures |r| > 1 ==> r[0] != '0'
    decreases n
  {
    if n < 10 then [DigitChar(n)]
    else
      var r := ShowNat(n / 10) + [DigitChar(n % 10)];
      assert r[..|r| - 1] == ShowNat(n / 10);
      r
  }

  /** Python `str(n)`. */
  function Show(n: int): (r: string)
    ensures |r| > 0 && (IsAsciiDigit(r[0]) || r[0] == '-')
  {
    if n < 0 then "-" + ShowNat(-n) else ShowNat(n)
  }

  /** An all-digit string is its own body for `int`. */
  lemma DigitStringIsBody(s: string)
    requires IsDigitString(s)
    ensures IsDecimalBody(s)
    ensures Strip(s) == s
  {
  }

  /** `int(s)` on an `isdigit()` string is the number its digits denote. */
  lemma ParseDigitString(s: string)
    requires IsDigitString(s)
    ensures ParseInt(s) == Some(DecimalValue(s))
  {
    assert Strip(s) == s && IsDecimalBody(s) by {
      DigitStringIsBody(s);
    }
    assert s[0] != '+' && s[0] != '-' by {
      assert IsAsciiDigit(s[0]);
    }
  }

  /** `int(str(n)) == n`. */
  lemma ParseShow(n: int)
    ensures ParseInt(Show(n)) == Some(n)
  {
    var s := Show(n);
    if n < 0 {
      var body := ShowNat(-n);
      assert s[1..] == body;
      assert s[|s| - 1] == body[|body| - 1];
      assert Strip(s) == s;
      DigitStringIsBody(body);
    } else {
      ParseDigitString(s);
    }
  }

  /** `str(n)` never contains a given non-digit, non-sign character. */
  lemma ShowAvoids(n: int, c: char)
    requires !IsAsciiDigit(c) && c != '-'
    ensures c !in Show(n)
  {
    var s := Show(n);
    if n < 0 {
      assert s == "-" + ShowNat(-n);
      forall i | 0 <= i < |s| ensures s[i] != c {
        if i > 0 { assert s[i] == ShowNat(-n)[i - 1]; }
      }
    }
  }
}

=== FILE: game_engine.dfy ===
/** The preset story engine (game_engine.py): a decision tree keyed on a step
    counter and on substrings of the player's action, with the ending chosen
    from a story flag and an inventory item. */
module GameEngine {
  import opened Wrappers
  import opened Builtins
  import opened Json
  import opened PlayerModel
  import opened StoryModel
  import opened StateManager

  /** The engine's own state: the step counter. */
  datatype Engine = Engine(storyStep: int)

  /** The scene `next_step` hands back. `endingType` is present only on endings. */
  datatype Scene = Scene(
    sceneId: string,
    description: string,
    options: seq<string>,
    isEnd: bool,
    endingType: Option<string>)

  const OpeningId: string := "start_0"
  const OpeningDescription: string := "你醒来发现自己身处一个陌生的房间，四周昏暗，只有微弱的光线从窗缝透入。"
  const OpeningOptions: seq<string> := ["环顾四周", "呼喊有人吗", "继续睡觉"]

  const Diary: string := "神秘日记"
  const ReadDiaryFlag: string := "read_diary"

  /** A scene that goes on, with three options. */
  function Continue(sceneId: string, description: string, a: string, b: string, c: string): Scene {
    Scene(sceneId, description, [a, b, c], false, None)
  }

  /** The scenes of step 1, tried in order: look around, call out, anything else. */
  function StepOneScene(action: string): (s: Scene)
    ensures s.sceneId == "scene_1" && |s.options| == 3 && !s.isEnd && s.endingType.None?
    ensures Contains(action, "环顾四周") ==> s.options == ["查看日记", "尝试开门", "走向窗户"]
    ensures Contains(action, "环顾四周") ==> s.description == "你仔细观察房间，发现这里有一张古老的书桌、一扇紧闭的门和一扇窗。书桌上放着一本厚厚的日记。"
    ensures !Contains(action, "环顾四周") && Contains(action, "呼喊") ==>
      s.options == ["躲起来", "准备迎接来访者", "寻找武器"]
    ensures !Contains(action, "环顾四周") && Contains(action, "呼喊") ==>
      s.description == "你大声呼喊，但只有回声回应。然而，你听到了楼下传来的脚步声，似乎有人正在上楼。"
    ensures !Contains(action, "环顾四周") && !Contains(action, "呼喊") ==>
      s.options == ["假装睡着", "立即起身", "观察来者"]
    ensures !Contains(action, "环顾四周") && !Contains(action, "呼喊") ==>
      s.description == "你试图再次入睡，但奇怪的声音让你无法安眠。突然，房门被人轻轻推开了..."
  {
    if Contains(action, "环顾四周") then
      Continue("scene_1", "你仔细观察房间，发现这里有一张古老的书桌、一扇紧闭的门和一扇窗。书桌上放着一本厚厚的日记。",
        "查看日记", "尝试开门", "走向窗户")
    else if Contains(action, "呼喊") then
      Continue("scene_1", "你大声呼喊，但只有回声回应。然而，你听到了楼下传来的脚步声，似乎有人正在上楼。",
        "躲起来", "准备迎接来访者", "寻找武器")
    else
      Continue("scene_1", "你试图再次入睡，但奇怪的声音让你无法安眠。突然，房门被人轻轻推开了...",
        "假装睡着", "立即起身", "观察来者")
  }

  /** The scenes of step 2, tried in order: the diary, the door, hiding,
      anything else. */
  function StepTwoScene(action: string): (s: Scene)
    ensures s.sceneId == "scene_2" && |s.options| == 3 && !s.isEnd && s.endingType.None?
    ensures Contains(action, "日记") ==> s.options == ["寻找密室", "继续探索房间", "离开这里"]
    ensures Contains(action, "日记") ==>
      s.description == "日记记录了一个神秘法师的实验。最后几页提到了一个隐藏的密室和一把魔法钥匙。你获得了重要线索！"
    ensures !Contains(action, "日记") && Contains(action, "开门") ==>
      s.options == ["研究符文", "用力撞门", "寻找钥匙"]
    ensures !Contains(action, "日记") && Contains(action, "开门") ==>
      s.description == "门被锁住了，但你发现门框上有奇怪的符文。当你触摸符文时，它们发出微弱的光芒。"
    ensures !Contains(action, "日记") && !Contains(action, "开门") && Contains(action, "躲起来") ==>
      s.options == ["继续躲藏", "突然出现", "偷偷跟踪"]
    ensures !Contains(action, "日记") && !Contains(action, "开门") && Contains(action, "躲起来") ==>
      s.description == "你藏在床下，一个穿着长袍的神秘人走进房间。他似乎在寻找什么东西。"
    ensures !Contains(action, "日记") && !Contains(action, "开门") && !Contains(action, "躲起来") ==>
      s.options == ["观察变化", "寻找出路", "保持冷静"]
    ensures !Contains(action, "日记") && !Contains(action, "开门") && !Contains(action, "躲起来") ==>
      s.description == "你的行动引起了意想不到的结果，房间开始发生奇怪的变化..."
  {
    if Contains(action, "日记") then
      Continue("scene_2", "日记记录了一个神秘法师的实验。最后几页提到了一个隐藏的密室和一把魔法钥匙。你获得了重要线索！",
        "寻找密室", "继续探索房间", "离开这里")
    else if Contains(action, "开门") then
      Continue("scene_2", "门被锁住了，但你发现门框上有奇怪的符文。当你触摸符文时，它们发出微弱的光芒。",
        "研究符文", "用力撞门", "寻找钥匙")
    else if Contains(action, "躲起来") then
      Continue("scene_2", "你藏在床下，一个穿着长袍的神秘人走进房间。他似乎在寻找什么东西。",
        "继续躲藏", "突然出现", "偷偷跟踪")
    else
      Continue("scene_2", "你的行动引起了意想不到的结果，房间开始发生奇怪的变化...",
        "观察变化", "寻找出路", "保持冷静")
  }

  /** The step-2 reward for reading the diary: the diary, 10 experience and the flag. */
  function ReadDiary(m: Manager): (r: Manager)
    ensures HasItem(r.player, Diary)
    ensures IsTruthy(GetStoryFlag(r, ReadDiaryFlag, VBool(false)))
    ensures r.player == AddExperience(AddItem(m.player, Diary), 10)
    ensures r.story == SetFlag(m.story, ReadDiaryFlag, VBool(true))
  {
    SetStoryFlag(PlayerGainExperience(AddPlayerItem(m, Diary), 10), ReadDiaryFlag, VBool(true))
  }

  /** The good ending needs both the flag and the diary in the inventory. */
  predicate EarnsGoodEnding(m: Manager) {
    IsTruthy(GetStoryFlag(m, ReadDiaryFlag, VBool(false))) && HasItem(m.player, Diary)
  }

  function EndingScene(endingType: string, description: string): Scene {
    Scene("ending_" + endingType, description, [], true, Some(endingType))
  }

  const GoodEnding: Scene := EndingScene("good",
    "你成功解开了房间的谜题，发现了通往外界的秘密通道。当你走出这个神秘的地方时，阳光洒在你的脸上，新的冒险正在等待着你...")
  const NeutralEnding: Scene := EndingScene("neutral",
    "尽管经历了种种困难，你最终还是被困在了这个神秘的房间里。但你相信，总有一天你会找到离开的方法...")

  /** The fallback after the decision tree; reached only for steps below 1. */
  const DefaultScene: Scene := Scene("default", "你的冒险还在继续...", ["继续探索"], false, None)

  /** `start_new_game`: reset the counter and move the story on to the opening
      scene with no choice. The scene that was current (on a fresh game, the
      default `scene_0` with no description) is archived first; nothing else of
      the story or the player changes. */
  function StartNewGame(e: Engine, m: Manager, now: Timestamp): (res: (Engine, Manager))
    ensures res.0.storyStep == 0
    ensures res.1.story.currentSceneId == OpeningId && res.1.story.currentDescription == OpeningDescription
    ensures res.1.story.currentOptions == OpeningOptions
    ensures m.story.currentSceneId != "" ==> res.1.story.history == m.story.history + [CurrentAsNode(m.story, now)]
    ensures m.story.currentSceneId == "" ==> res.1.story.history == m.story.history
    ensures SameBookkeeping(m.story, res.1.story)
    ensures res.1.player == m.player
  {
    (Engine(0), UpdateStory(m, OpeningId, OpeningDescription, OpeningOptions, None, now))
  }

  /** A new game (`create_new_game` then `start_new_game`) has one archived
      node, the default scene, and the opening scene as the current one. */
  lemma NewGameOpening(e: Engine, name: string, now: Timestamp)
    ensures var m := StartNewGame(e, CreateNewGame(name), now).1;
      && m.story.history == [StoryNode(InitialSceneId, "", [], None, now)]
      && m.story.currentSceneId == OpeningId && m.story.currentOptions == OpeningOptions
      && !m.story.isEnded && m.story.storyFlags == map[] && m.player == NewPlayer(name)
  {
  }

  /** `next_step`: advance the counter by one and pick the next scene. Only the
      diary branch of step 2 and the endings change the player or the flags. */
  function NextStep(e: Engine, action: string, m: Manager): (res: (Engine, Manager, Scene))
    ensures res.0.storyStep == e.storyStep + 1
    ensures res.1.story.currentSceneId == m.story.currentSceneId
    ensures res.1.story.history == m.story.history && res.1.story.isEnded == m.story.isEnded
    ensures var step := e.storyStep + 1;
      && (step == 1 ==> res.2 == StepOneScene(action) && res.1 == m)
      && (step == 2 ==> res.2 == StepTwoScene(action)
                        && res.1 == if Contains(action, "日记") then ReadDiary(m) else m)
      && (step >= 3 ==> res.2.isEnd && res.2.options == []
                        && res.2.endingType.Some?
                        && res.2.sceneId == "ending_" + res.2.endingType.value
                        && (res.2.endingType == Some("good") <==> EarnsGoodEnding(m))
                        && res.1 == PlayerGainExperience(m, if EarnsGoodEnding(m) then 50 else 20))
      && (step <= 0 ==> res.2 == DefaultScene && res.1 == m)
  {
    var step := e.storyStep + 1;
    var e' := Engine(step);
    if step == 1 then (e', m, StepOneScene(action))
    else if step == 2 then
      if Contains(action, "日记") then (e', ReadDiary(m), StepTwoScene(action))
      else (e', m, StepTwoScene(action))
    else if step >= 3 then
      if EarnsGoodEnding(m) then (e', PlayerGainExperience(m, 50), GoodEnding)
      else (e', PlayerGainExperience(m, 20), NeutralEnding)
    else (e', m, DefaultScene)
  }

  /** From step 3 on, a player who read and kept the diary gets the good
      ending and 50 experience, whatever the action. */
  lemma GoodEndingStep(e: Engine, action: string, m: Manager)
    requires e.storyStep >= 2 && EarnsGoodEnding(m)
    ensures NextStep(e, action, m) == (Engine(e.storyStep + 1), PlayerGainExperience(m, 50), GoodEnding)
  {
  }

  /** From step 3 on, any other player gets the neutral ending and 20
      experience, whatever the action. */
  lemma NeutralEndingStep(e: Engine, action: string, m: Manager)
    requires e.storyStep >= 2 && !EarnsGoodEnding(m)
    ensures NextStep(e, action, m) == (Engine(e.storyStep + 1), PlayerGainExperience(m, 20), NeutralEnding)
  {
  }

  /** From a non-negative counter, the decision tree always answers and the
      trailing default scene is never produced. */
  lemma DefaultUnreachable(e: Engine, action: string, m: Manager)
    requires e.storyStep >= 0
    ensures NextStep(e, action, m).2 != DefaultScene
    ensures NextStep(e, action, m).2.sceneId != "default"
  {
  }
}

=== FILE: game_loop.dfy ===
/** One turn of the console game loop (main.py, `game_loop`): resolve the
    chosen option, apply its event tag, let the engine produce the next scene,
    commit it, and settle the ending. */
module GameLoop {
  import opened Wrappers
  import opened Builtins
  import opened Json
  import opened PlayerModel
  import opened StoryModel
  import opened StateManager
  import opened GameEngine

  // ---------------------------------------------------------------------------
  // Choosing an option
  // ---------------------------------------------------------------------------

  /** The option the input names: an exact option text first (its first
      occurrence), otherwise an all-digit 1-based position in range. */
  function ChosenIndex(options: seq<string>, input: string): (r: Option<nat>)
    ensures r.Some? ==> r.value < |options|
    ensures input in options ==>
      r.Some? && options[r.value] == input && forall j :: 0 <= j < r.value ==> options[j] != input
    ensures input !in options ==>
      (r.Some? <==> IsDigitString(input) && 1 <= DecimalValue(input) <= |options|)
    ensures input !in options && r.Some? ==> r.value == DecimalValue(input) - 1
  {
    if |options| > 0 && input in options then IndexOf(options, input)
    else if |options| > 0 && IsDigitString(input) then
      ParseDigitString(input);
      var idx := ParseInt(input).value - 1;
      if 0 <= idx < |options| then Some(idx) else None
    else None
  }

  // ---------------------------------------------------------------------------
  // Event tags
  // ---------------------------------------------------------------------------

  /** What an option's tag asks for. */
  datatype Event =
    | Heal(amount: int)
    | Damage(amount: int)
    | GainItem(item: string)
    | LoseItem(item: string)
    | GainExperience(amount: int)
    | NoEffect

  const HealPrefix: string := "heal:"
  const DamagePrefix: string := "damage:"
  const AddItemPrefix: string := "add_item:"
  const RemoveItemPrefix: string := "remove_item:"
  const AddExperiencePrefix: string := "add_experience:"

  /** A tag prefix: a keyword followed by the one colon it holds. */
  predicate IsTagPrefix(prefix: string) {
    |prefix| >= 1 && prefix[|prefix| - 1] == ':' && ':' !in prefix[..|prefix| - 1]
  }

  /** `int(tag.split(":")[1])`: the text between the first and second colon,
      read as an integer. A tag with no colon has no argument; no tag that
      reaches this through a prefix lacks one. */
  function NumericArgument(tag: string): Option<int> {
    if ':' in tag then ParseInt(Split(tag, ':')[1]) else None
  }

  /** A tag that starts with a tag prefix holds a colon, and the text after its
      first colon is the text after the prefix. */
  lemma ArgumentAfterPrefix(prefix: string, tag: string)
    requires IsTagPrefix(prefix) && StartsWith(tag, prefix)
    ensures ':' in tag
    ensures AfterFirst(tag, ':') == tag[|prefix|..]
  {
    assert tag == prefix + tag[|prefix|..];
    SplitAfterPrefix(prefix, tag[|prefix|..], ':');
  }

  /** A tag that starts with a prefix agrees with it at each of its positions. */
  lemma PrefixChar(tag: string, prefix: string, i: nat)
    requires StartsWith(tag, prefix) && i < |prefix|
    ensures tag[i] == prefix[i]
  {
    assert tag[..|prefix|][i] == tag[i];
  }

  /** No tag starts with two of the five prefixes. */
  lemma PrefixesExclusive(tag: string)
    ensures StartsWith(tag, HealPrefix) ==>
      !StartsWith(tag, DamagePrefix) && !StartsWith(tag, AddItemPrefix)
      && !StartsWith(tag, RemoveItemPrefix) && !StartsWith(tag, AddExperiencePrefix)
    ensures StartsWith(tag, DamagePrefix) ==>
      !StartsWith(tag, AddItemPrefix) && !StartsWith(tag, RemoveItemPrefix) && !StartsWith(tag, AddExperiencePrefix)
    ensures StartsWith(tag, AddItemPrefix) ==>
      !StartsWith(tag, RemoveItemPrefix) && !StartsWith(tag, AddExperiencePrefix)
    ensures StartsWith(tag, RemoveItemPrefix) ==> !StartsWith(tag, AddExperiencePrefix)
  {
    if StartsWith(tag, HealPrefix) { PrefixChar(tag, HealPrefix, 0); }
    if StartsWith(tag, DamagePrefix) { PrefixChar(tag, DamagePrefix, 0); }
    if StartsWith(tag, AddItemPrefix) { PrefixChar(tag, AddItemPrefix, 0); PrefixChar(tag, AddItemPrefix, 4); }
    if StartsWith(tag, RemoveItemPrefix) { PrefixChar(tag, RemoveItemPrefix, 0); }
    if StartsWith(tag, AddExperiencePrefix) {
      PrefixChar(tag, AddExperiencePrefix, 0);
      PrefixChar(tag, AddExperiencePrefix, 4);
    }
  }

  /** Reads a tag, trying the prefixes in the loop's order. A numeric tag
      carries the integer between its first and second colon, and fails
      (`None`, Python's `ValueError`) exactly when that text is not an integer.
      An item tag carries everything after its prefix, colons included. Any
      other tag has no effect. */
  function ParseTag(tag: string): (r: Option<Event>)
    ensures StartsWith(tag, HealPrefix) ==>
      (r.None? <==> NumericArgument(tag).None?) && (r.Some? ==> r.value == Heal(NumericArgument(tag).value))
    ensures StartsWith(tag, DamagePrefix) ==>
      (r.None? <==> NumericArgument(tag).None?) && (r.Some? ==> r.value == Damage(NumericArgument(tag).value))
    ensures StartsWith(tag, AddExperiencePrefix) ==>
      (r.None? <==> NumericArgument(tag).None?)
      && (r.Some? ==> r.value == GainExperience(NumericArgument(tag).value))
    ensures StartsWith(tag, AddItemPrefix) ==> r == Some(GainItem(tag[|AddItemPrefix|..]))
    ensures StartsWith(tag, RemoveItemPrefix) ==> r == Some(LoseItem(tag[|RemoveItemPrefix|..]))
    ensures r == Some(NoEffect) <==>
      !StartsWith(tag, HealPrefix) && !StartsWith(tag, DamagePrefix) && !StartsWith(tag, AddItemPrefix)
      && !StartsWith(tag, RemoveItemPrefix) && !StartsWith(tag, AddExperiencePrefix)
  {
    PrefixesExclusive(tag);
    if StartsWith(tag, HealPrefix) then
      match NumericArgument(tag)
      case Some(n) => Some(Heal(n))
      case None => None
    else if StartsWith(tag, DamagePrefix) then
      match NumericArgument(tag)
      case Some(n) => Some(Damage(n))
      case None => None
    else if StartsWith(tag, AddItemPrefix) then
      ArgumentAfterPrefix(AddItemPrefix, tag);
      Some(GainItem(AfterFirst(tag, ':')))
    else if StartsWith(tag, RemoveItemPrefix) then
      ArgumentAfterPrefix(RemoveItemPrefix, tag);
      Some(LoseItem(AfterFirst(tag, ':')))
    else if StartsWith(tag, AddExperiencePrefix) then
      match NumericArgument(tag)
      case Some(n) => Some(GainExperience(n))
      case None => None
    else Some(NoEffect)
  }

  /** The tag that stands for an event; the inverse of `ParseTag`. */
  function FormatTag(e: Event): string {
    match e
    case Heal(n) => HealPrefix + Show(n)
    case Damage(n) => DamagePrefix + Show(n)
    case GainItem(item) => AddItemPrefix + item
    case LoseItem(item) => RemoveItemPrefix + item
    case GainExperience(n) => AddExperiencePrefix + Show(n)
    case NoEffect => "none"
  }

  /** The numeric argument of `prefix + str(n)` reads back as `n`. */
  lemma NumericArgumentOfShow(prefix: string, n: int)
    requires IsTagPrefix(prefix)
    ensures ':' in prefix + Show(n)
    ensures NumericArgument(prefix + Show(n)) == Some(n)
  {
    SplitAfterPrefix(prefix, Show(n), ':');
    ShowAvoids(n, ':');
    assert Split(Show(n), ':') == [Show(n)];
    ParseShow(n);
  }

  lemma HealTagRoundTrip(n: int)
    ensures ParseTag(FormatTag(Heal(n))) == Some(Heal(n))
  {
    var tag := FormatTag(Heal(n));
    assert IsTagPrefix(HealPrefix);
    NumericArgumentOfShow(HealPrefix, n);
    assert tag[..|HealPrefix|] == HealPrefix;
  }

  lemma DamageTagRoundTrip(n: int)
    ensures ParseTag(FormatTag(Damage(n))) == Some(Damage(n))
  {
    var tag := FormatTag(Damage(n));
    assert IsTagPrefix(DamagePrefix);
    NumericArgumentOfShow(DamagePrefix, n);
    assert tag[..|DamagePrefix|] == DamagePrefix;
  }

  lemma GainItemTagRoundTrip(item: string)
    ensures ParseTag(FormatTag(GainItem(item))) == Some(GainItem(item))
  {
    var tag := FormatTag(GainItem(item));
    assert tag[..|AddItemPrefix|] == AddItemPrefix;
    assert tag[|AddItemPrefix|..] == item;
  }

  lemma LoseItemTagRoundTrip(item: string)
    ensures ParseTag(FormatTag(LoseItem(item))) == Some(LoseItem(item))
  {
    var tag := FormatTag(LoseItem(item));
    assert tag[..|RemoveItemPrefix|] == RemoveItemPrefix;
    assert tag[|RemoveItemPrefix|..] == item;
  }

  lemma GainExperienceTagRoundTrip(n: int)
    ensures ParseTag(FormatTag(GainExperience(n))) == Some(GainExperience(n))
  {
    var tag := FormatTag(GainExperience(n));
    assert IsTagPrefix(AddExperiencePrefix);
    NumericArgumentOfShow(AddExperiencePrefix, n);
    assert tag[..|AddExperiencePrefix|] == AddExperiencePrefix;
  }

  /** Every event with an effect survives being written as a tag and read back. */
  lemma TagRoundTrip(e: Event)
    requires !e.NoEffect?
    ensures ParseTag(FormatTag(e)) == Some(e)
  {
    match e
    case Heal(n) => HealTagRoundTrip(n);
    case Damage(n) => DamageTagRoundTrip(n);
    case GainItem(item) => GainItemTagRoundTrip(item);
    case LoseItem(item) => LoseItemTagRoundTrip(item);
    case GainExperience(n) => GainExperienceTagRoundTrip(n);
  }

  /** A tag written for an event, once applied, has exactly that event's
      effect: `heal:N` heals by N, `damage:N` deals N, `add_item:X` appends X,
      `remove_item:X` removes X, `add_experience:N` adds N experience. */
  lemma FormattedTagApplies(p: Player, e: Event)
    requires !e.NoEffect?
    ensures ApplyTag(p, FormatTag(e)) == ApplyEvent(p, e)
    ensures e.Heal? ==> ApplyTag(p, HealPrefix + Show(e.amount)) == PlayerModel.Heal(p, e.amount)
  {
    TagRoundTrip(e);
  }

  /** One event on the player sheet. Only the field the event is about moves:
      health for heal and damage, the inventory for items, and level,
      experience and health figures for experience. Name, skills and
      attributes never change. */
  function ApplyEvent(p: Player, e: Event): (r: Player)
    ensures SameIdentity(p, r)
    ensures e.NoEffect? ==> r == p
    ensures e.Heal? ==> r == PlayerModel.Heal(p, e.amount)
    ensures e.Damage? ==> r == TakeDamage(p, e.amount)
    ensures e.GainItem? ==> r == AddItem(p, e.item)
    ensures e.LoseItem? ==> r == RemoveItem(p, e.item).1
    ensures e.GainExperience? ==> r == AddExperience(p, e.amount)
    ensures e.Heal? || e.Damage? ==> r.(health := p.health) == p
    ensures e.Heal? && e.amount >= 0 && HealthInBounds(p) ==> HealthInBounds(r) && r.health >= p.health
    ensures e.Damage? && e.amount >= 0 && HealthInBounds(p) ==> HealthInBounds(r) && r.health <= p.health
    ensures e.Damage? ==> (IsAlive(r) <==> p.health > e.amount)
    ensures e.GainItem? ==> HasItem(r, e.item) && multiset(r.inventory) == multiset(p.inventory) + multiset{e.item}
    ensures e.LoseItem? ==> multiset(r.inventory) == multiset(p.inventory) - multiset{e.item}
    ensures e.GainItem? || e.LoseItem? ==> r.(inventory := p.inventory) == p
    ensures e.GainExperience? ==> r.inventory == p.inventory && r.level >= p.level
  {
    match e
    case Heal(n) => PlayerModel.Heal(p, n)
    case Damage(n) => TakeDamage(p, n)
    case GainItem(item) => AddItem(p, item)
    case LoseItem(item) => RemoveItem(p, item).1
    case GainExperience(n) => AddExperience(p, n)
    case NoEffect => p
  }

  /** Applies one option's tag. An empty tag, `none`, an unknown prefix and a
      malformed numeric argument all leave the player as it was. */
  function ApplyTag(p: Player, tag: string): (r: Player)
    ensures tag == "" || tag == "none" ==> r == p
    ensures ParseTag(tag).None? || ParseTag(tag) == Some(NoEffect) ==> r == p
    ensures tag != "" && tag != "none" && ParseTag(tag).Some? ==> r == ApplyEvent(p, ParseTag(tag).value)
  {
    if tag == "" || tag == "none" then p
    else match ParseTag(tag)
      case None => p
      case Some(e) => ApplyEvent(p, e)
  }

  /** Whether the chosen option's event runs: there is a chosen option and a
      tag at its position. */
  predicate EventApplies(chosen: Option<nat>, events: seq<string>) {
    chosen.Some? && |events| > 0 && chosen.value < |events|
  }

  /** An event runs exactly when the input picks an option (by its text or its
      1-based number) whose position also has a tag; with no tags nothing runs. */
  lemma EventNeedsChoiceAndTag(options: seq<string>, events: seq<string>, input: string)
    ensures EventApplies(ChosenIndex(options, input), events) ==>
      ChosenIndex(options, input).value < |options| && ChosenIndex(options, input).value < |events|
    ensures |events| == 0 ==> !EventApplies(ChosenIndex(options, input), events)
    ensures input in options ==>
      (EventApplies(ChosenIndex(options, input), events) <==> IndexOf(options, input).value < |events|)
    ensures input !in options ==>
      (EventApplies(ChosenIndex(options, input), events) <==>
         IsDigitString(input) && 1 <= DecimalValue(input) <= |options| && DecimalValue(input) <= |events|)
  {
  }

  // ---------------------------------------------------------------------------
  // The turn
  // ---------------------------------------------------------------------------

  /** After one turn: the engine, the state, the scene the engine produced, and
      whether the loop stops because the player died. */
  datatype Turn = Turn(engine: Engine, manager: Manager, scene: Scene, stop: bool)

  /** The player after the chosen option's event, before the engine runs. */
  function PlayerAfterEvent(p: Player, options: seq<string>, events: seq<string>, input: string): (r: Player)
    ensures !EventApplies(ChosenIndex(options, input), events) ==> r == p
    ensures EventApplies(ChosenIndex(options, input), events) ==>
      r == ApplyTag(p, events[ChosenIndex(options, input).value])
  {
    var chosen := ChosenIndex(options, input);
    if EventApplies(chosen, events) then ApplyTag(p, events[chosen.value]) else p
  }

  /** One normal turn (main.py lines 163-216): the event first, then the engine
      on the updated state, then the commit with the input as the choice, then
      the scripted ending, and last the death check, which overrides it. */
  function ResolveTurn(e: Engine, m: Manager, options: seq<string>, events: seq<string>,
                       input: string, now: Timestamp): (t: Turn)
    ensures var m1 := m.(player := PlayerAfterEvent(m.player, options, events, input));
      var next := NextStep(e, input, m1);
      && t.engine == next.0
      && t.scene == next.2
      && t.manager.player == next.1.player
      && t.manager.story.(isEnded := next.1.story.isEnded, endingType := next.1.story.endingType)
         == UpdateStory(next.1, next.2.sceneId, next.2.description, next.2.options, Some(input), now).story
    ensures t.engine.storyStep == e.storyStep + 1
    ensures t.stop <==> !IsAlive(t.manager.player)
    ensures t.stop ==> t.manager.story.isEnded && t.manager.story.endingType == Some("dead")
    ensures !t.stop ==> (t.manager.story.isEnded <==> m.story.isEnded || t.scene.isEnd)
    ensures !t.stop && t.scene.isEnd ==> t.manager.story.endingType == Some(t.scene.endingType.GetOr("normal"))
    ensures !t.stop && !t.scene.isEnd ==> t.manager.story.endingType == m.story.endingType
    ensures t.manager.story.currentSceneId == t.scene.sceneId
    ensures t.manager.story.currentOptions == t.scene.options
  {
    var m1 := m.(player := PlayerAfterEvent(m.player, options, events, input));
    var (e2, m2, scene) := NextStep(e, input, m1);
    var m3 := UpdateStory(m2, scene.sceneId, scene.description, scene.options, Some(input), now);
    var m4 := if scene.isEnd then EndGame(m3, scene.endingType.GetOr("normal")) else m3;
    if !IsAlive(m4.player) then Turn(e2, EndGame(m4, "dead"), scene, true)
    else Turn(e2, m4, scene, false)
  }

  /** The menu entries offered next to the story's options; they save, show
      the sheet or leave, and never make a story turn. */
  const SpecialOptions: seq<string> := ["保存游戏", "查看角色属性", "返回主菜单"]

  /** The turn as the loop actually runs it: the options and the events are
      read back from `get_current_state`; a story that has already ended, or
      an input that is a menu entry, makes no turn (`None`). */
  function GameLoopTurn(e: Engine, m: Manager, input: string, now: Timestamp): (r: Option<Turn>)
    ensures r.None? <==> m.story.isEnded || input in SpecialOptions
  {
    var view := GetCurrentState(m).fields;
    if Truthy(Get(view, "is_end", JBool(false))) then None
    else if input in SpecialOptions then None
    else
      var options := AsList(Get(view, "options", JList([])), AsStr).GetOr([]);
      var events := AsList(Get(view, "option_events", JList([])), AsStr).GetOr([]);
      Some(ResolveTurn(e, m, options, events, input, now))
  }

  /** Since the view has no `option_events`, the loop never fires an event:
      each turn is the engine's step alone, on the current options. */
  lemma LoopFiresNoEvent(e: Engine, m: Manager, input: string, now: Timestamp)
    requires !m.story.isEnded && input !in SpecialOptions
    ensures GameLoopTurn(e, m, input, now) == Some(ResolveTurn(e, m, m.story.currentOptions, [], input, now))
    ensures PlayerAfterEvent(m.player, m.story.currentOptions, [], input) == m.player
  {
  }

  /** Without events the engine never lowers health, so a console turn from a
      living sheet whose health is within its maximum never stops the loop:
      the death check can only fire on a loaded sheet outside
      `0 < health <= max_health`. */
  lemma ConsoleTurnKeepsAlive(e: Engine, m: Manager, input: string, now: Timestamp)
    requires !m.story.isEnded && input !in SpecialOptions
    requires 0 < m.player.health <= m.player.maxHealth
    ensures GameLoopTurn(e, m, input, now).Some?
    ensures !GameLoopTurn(e, m, input, now).value.stop
  {
    LoopFiresNoEvent(e, m, input, now);
    var t := ResolveTurn(e, m, m.story.currentOptions, [], input, now);
    assert m.(player := m.player) == m;
    var next := NextStep(e, input, m);
    assert t.manager.player == next.1.player;
    EngineKeepsAlive(e, input, m);
  }

  /** The engine's own changes to the sheet (the diary's experience, an
      ending's experience) never bring health to zero. */
  lemma EngineKeepsAlive(e: Engine, input: string, m: Manager)
    requires 0 < m.player.health <= m.player.maxHealth
    ensures IsAlive(NextStep(e, input, m).1.player)
  {
    var p := m.player;
    var step := e.storyStep + 1;
    if step == 2 && Contains(input, "日记") {
      ExperienceKeepsAlive(AddItem(p, Diary), 10);
    } else if step >= 3 {
      ExperienceKeepsAlive(p, if EarnsGoodEnding(m) then 50 else 20);
    }
  }

  /** The committed turn archives the scene the choice was made in with no
      choice, and writes the input onto the node that was last before it. */
  lemma ChoiceLandsOnEarlierNode(e: Engine, m: Manager, options: seq<string>, events: seq<string>,
                                 input: string, now: Timestamp)
    requires m.story.currentSceneId != "" && |m.story.history| > 0 && input != ""
    ensures var t := ResolveTurn(e, m, options, events, input, now);
      var n := |m.story.history|;
      && |t.manager.story.history| == n + 1
      && t.manager.story.history[n] == CurrentAsNode(m.story, now)
      && t.manager.story.history[n - 1].playerChoice == Some(input)
      && t.manager.story.history[n - 1].sceneId == m.story.history[n - 1].sceneId
  {
  }

  /** The tag `damage:10` reads as ten points of damage. */
  lemma DamageTenTag()
    ensures ParseTag("damage:10") == Some(Damage(10))
  {
    assert "damage:10" == FormatTag(Damage(10)) by {
      assert Show(10) == "10";
    }
    TagRoundTrip(Damage(10));
  }

  /** The player holds the diary and the story has the read_diary flag set:
      what the good ending asks for. */
  predicate DiaryRead(p: Player, s: StoryState) {
    HasItem(p, Diary) && IsTruthy(GetFlag(s, ReadDiaryFlag, VBool(false)))
  }

  /** A turn from step 3 on: the ending depends on the player as the event
      left it, and so does the experience the ending grants. */
  lemma EndingTurn(e: Engine, m: Manager, options: seq<string>, events: seq<string>, input: string, now: Timestamp)
    requires e.storyStep >= 2
    ensures var q := PlayerAfterEvent(m.player, options, events, input);
      var good := EarnsGoodEnding(m.(player := q));
      var t := ResolveTurn(e, m, options, events, input, now);
      && t.scene == (if good then GoodEnding else NeutralEnding)
      && t.manager.player == AddExperience(q, if good then 50 else 20)
  {
    var q := PlayerAfterEvent(m.player, options, events, input);
    if EarnsGoodEnding(m.(player := q)) {
      GoodEndingStep(e, input, m.(player := q));
    } else {
      NeutralEndingStep(e, input, m.(player := q));
    }
  }

  /** Choosing the single option "前进" whose tag is `damage:10` takes a
      player with at most 10 health to zero. */
  lemma LethalChoice(p: Player)
    requires p.health <= 10
    ensures PlayerAfterEvent(p, ["前进"], ["damage:10"], "前进") == p.(health := 0)
  {
    var tag := "damage:10";
    DamageTenTag();
    assert ApplyTag(p, tag) == TakeDamage(p, 10);
    assert ChosenIndex(["前进"], "前进") == Some(0);
    assert EventApplies(Some(0), [tag]);
  }

  /** Death overrides a good ending earned on the same turn: a lethal tag on
      the chosen option at the last step ends the game as "dead" even though
      the engine produced the good ending. */
  lemma DeathOverridesGoodEnding(p: Player, s: StoryState, now: Timestamp)
    requires DiaryRead(p, s) && p.health <= 10
    requires p.experience + 50 < p.level * 100
    ensures var t := ResolveTurn(Engine(2), Manager(p, s), ["前进"], ["damage:10"], "前进", now);
      && t.scene == GoodEnding
      && t.stop
      && t.manager.story.endingType == Some("dead")
  {
    LethalChoice(p);
    var q := p.(health := 0);
    assert EarnsGoodEnding(Manager(q, s));
    EndingTurn(Engine(2), Manager(p, s), ["前进"], ["damage:10"], "前进", now);
    AddExperienceWithinLevel(q, 50);
  }

  /** The event runs before the engine decides the ending: removing the only
      diary on the last step turns the good ending into the neutral one. */
  lemma EventPrecedesEnding(p: Player, s: StoryState, now: Timestamp)
    requires DiaryRead(p, s) && p.inventory == [Diary] && p.health > 0
    requires p.experience + 20 < p.level * 100
    ensures var t := ResolveTurn(Engine(2), Manager(p, s), ["放下日记"], [RemoveItemPrefix + Diary], "放下日记", now);
      && t.scene == NeutralEnding
      && !t.stop
      && t.manager.story.endingType == Some("neutral")
  {
    var tag := RemoveItemPrefix + Diary;
    LoseItemTagRoundTrip(Diary);
    assert ChosenIndex(["放下日记"], "放下日记") == Some(0);
    var q := PlayerAfterEvent(p, ["放下日记"], [tag], "放下日记");
    assert q == RemoveItem(p, Diary).1;
    assert q == p.(inventory := []);
    assert !EarnsGoodEnding(Manager(q, s));
    EndingTurn(Engine(2), Manager(p, s), ["放下日记"], [tag], "放下日记", now);
    AddExperienceWithinLevel(q, 20);
  }

  /** The scripted playthrough: from a new game, looking around, then reading
      the diary, then any action reaches the good ending with the diary kept,
      the flag set and 10 + 50 experience gained. */
  lemma DiaryPathEndsWell(name: string, t0: Timestamp, t1: Timestamp, t2: Timestamp, t3: Timestamp, last: string)
    ensures var (e1, m1) := StartNewGame(Engine(0), CreateNewGame(name), t0);
      var a := ResolveTurn(e1, m1, m1.story.currentOptions, [], "环顾四周", t1);
      var b := ResolveTurn(a.engine, a.manager, a.manager.story.currentOptions, [], "查看日记", t2);
      var c := ResolveTurn(b.engine, b.manager, b.manager.story.currentOptions, [], last, t3);
      && a.scene.sceneId == "scene_1" && a.scene.options[0] == "查看日记"
      && b.scene.sceneId == "scene_2"
      && c.scene == GoodEnding && !c.stop
      && c.manager.story.isEnded && c.manager.story.endingType == Some("good")
      && c.manager.player.inventory == [Diary]
      && c.manager.player.experience == 60 && c.manager.player.level == 1
  {
    var (e1, m1) := StartNewGame(Engine(0), CreateNewGame(name), t0);
    var look: string := "环顾四周";
    var read: string := "查看日记";
    assert Contains(look, "环顾四周") by { assert StartsWith(look[0..], "环顾四周"); }
    assert Contains(read, "日记") by { assert StartsWith(read[2..], "日记"); }
    var a := ResolveTurn(e1, m1, m1.story.currentOptions, [], look, t1);
    assert a.manager.player == m1.player;
    var b := ResolveTurn(a.engine, a.manager, a.manager.story.currentOptions, [], read, t2);
    assert b.manager.player == AddExperience(AddItem(m1.player, Diary), 10);
    assert b.manager.player.experience == 10 && b.manager.player.level == 1;
    assert EarnsGoodEnding(b.manager);
  }

  /** A death before the last step ends the story while its options are still
      on offer: an ended story need not have an empty option list. */
  lemma DeathLeavesOptions(p: Player, s: StoryState, now: Timestamp)
    requires p.health <= 10
    ensures var t := ResolveTurn(Engine(0), Manager(p, s), ["前进"], ["damage:10"], "前进", now);
      && t.stop && t.manager.story.isEnded
      && t.manager.story.endingType == Some("dead")
      && |t.manager.story.currentOptions| == 3
  {
    LethalChoice(p);
    var m1 := Manager(p.(health := 0), s);
    var next := NextStep(Engine(0), "前进", m1);
    assert next.2 == StepOneScene("前进");
    assert next.1 == m1;
    var t := ResolveTurn(Engine(0), Manager(p, s), ["前进"], ["damage:10"], "前进", now);
    assert t.manager.player == m1.player;
    assert t.scene == next.2;
  }

  /** Leveling up refills health, so the experience an ending grants can bring
      back a player whom the same turn's event left at zero health: the turn
      then ends with the good ending instead of a death. */
  lemma EndingExperienceRevives(p: Player, s: StoryState, now: Timestamp)
    requires DiaryRead(p, s) && p.health <= 10
    requires p.level == 1 && p.experience == 60 && p.maxHealth == 100
    ensures var t := ResolveTurn(Engine(2), Manager(p, s), ["前进"], ["damage:10"], "前进", now);
      && t.scene == GoodEnding
      && !t.stop
      && t.manager.player.level == 2 && t.manager.player.health == 110
      && t.manager.story.endingType == Some("good")
  {
    LethalChoice(p);
    var q := p.(health := 0);
    assert EarnsGoodEnding(Manager(q, s));
    EndingTurn(Engine(2), Manager(p, s), ["前进"], ["damage:10"], "前进", now);
    AddExperienceOneLevel(q, 50);
  }
}

=== FILE: json.dfy ===
/** The plain-data dictionaries that `to_dict` produces and `from_dict` reads
    (the shape saved to and loaded from JSON), and the scalar values the game
    stores in its free-form maps. */
module Json {
  import opened Wrappers

  datatype Json =
    | JNull
    | JBool(b: bool)
    | JInt(i: int)
    | JStr(s: string)
    | JList(items: seq<Json>)
    | JDict(fields: map<string, Json>)

  /** Python `d.get(key, default)`. */
  function Get(fields: map<string, Json>, key: string, default: Json): (r: Json)
    ensures key in fields ==> r == fields[key]
    ensures key !in fields ==> r == default
  {
    if key in fields then fields[key] else default
  }

  /** A dictionary key that is either missing or holds a value `dec` accepts:
      what `from_dict` needs of each key it reads with a default. */
  predicate Loads<T>(d: map<string, Json>, key: string, dec: Json -> Option<T>) {
    key !in d || dec(d[key]).Some?
  }

  /** Python truthiness of a plain-data value. */
  predicate Truthy(j: Json) {
    match j
    case JNull => false
    case JBool(b) => b
    case JInt(i) => i != 0
    case JStr(s) => s != ""
    case JList(items) => |items| > 0
    case JDict(fields) => |fields| > 0
  }

  // ---------------------------------------------------------------------------
  // Scalars
  // ---------------------------------------------------------------------------

  function AsStr(j: Json): (r: Option<string>)
    ensures r.Some? <==> j.JStr?
  {
    if j.JStr? then Some(j.s) else None
  }

  function AsInt(j: Json): (r: Option<int>)
    ensures r.Some? <==> j.JInt?
  {
    if j.JInt? then Some(j.i) else None
  }

  function AsBool(j: Json): (r: Option<bool>)
    ensures r.Some? <==> j.JBool?
  {
    if j.JBool? then Some(j.b) else None
  }

  function StrToJson(s: string): Json { JStr(s) }

  function IntToJson(i: int): Json { JInt(i) }

  /** An optional string is `null` when absent. */
  function FromOptStr(o: Option<string>): Json {
    match o
    case None => JNull
    case Some(s) => JStr(s)
  }

  function AsOptStr(j: Json): (r: Option<Option<string>>)
    ensures r.Some? <==> j.JNull? || j.JStr?
  {
    match j
    case JNull => Some(None)
    case JStr(s) => Some(Some(s))
    case _ => None
  }

  /** The values the game keeps in `story_flags` and `attributes`:
      `None`, booleans, integers and strings. */
  datatype Value = VNone | VBool(b: bool) | VInt(i: int) | VStr(s: string)

  /** Python truthiness of a stored value. */
  predicate IsTruthy(v: Value) {
    match v
    case VNone => false
    case VBool(b) => b
    case VInt(i) => i != 0
    case VStr(s) => s != ""
  }

  function FromValue(v: Value): (j: Json)
    ensures Truthy(j) <==> IsTruthy(v)
  {
    match v
    case VNone => JNull
    case VBool(b) => JBool(b)
    case VInt(i) => JInt(i)
    case VStr(s) => JStr(s)
  }

  function AsValue(j: Json): (r: Option<Value>)
    ensures r.Some? <==> !j.JList? && !j.JDict?
  {
    match j
    case JNull => Some(VNone)
    case JBool(b) => Some(VBool(b))
    case JInt(i) => Some(VInt(i))
    case JStr(s) => Some(VStr(s))
    case _ => None
  }

  lemma OptStrRoundTrip(o: Option<string>)
    ensures AsOptStr(FromOptStr(o)) == Some(o)
  {
  }

  lemma ValueRoundTrip(v: Value)
    ensures AsValue(FromValue(v)) == Some(v)
  {
  }

  // ---------------------------------------------------------------------------
  // Lists and dictionaries
  // ---------------------------------------------------------------------------

  function EncodeList<T>(xs: seq<T>, enc: T -> Json): (items: seq<Json>)
    ensures |items| == |xs|
    ensures forall k :: 0 <= k < |xs| ==> items[k] == enc(xs[k])
  {
    if |xs| == 0 then [] else [enc(xs[0])] + EncodeList(xs[1..], enc)
  }

  /** Decodes every element in order; fails if any element fails. */
  function DecodeList<T>(items: seq<Json>, dec: Json -> Option<T>): (r: Option<seq<T>>)
    ensures r.Some? <==> forall k :: 0 <= k < |items| ==> dec(items[k]).Some?
    ensures r.Some? ==> |r.value| == |items|
    ensures r.Some? ==> forall k :: 0 <= k < |items| ==> r.value[k] == dec(items[k]).value
  {
    if |items| == 0 then Some([])
    else match dec(items[0])
      case None => None
      case Some(x) =>
        match DecodeList(items[1..], dec)
        case None =>
          assert forall k :: 0 <= k < |items| - 1 ==> items[1..][k] == items[k + 1];
          None
        case Some(rest) => Some([x] + rest)
  }

  /** The list field `j`, or `None` if it is not a list. */
  function AsList<T>(j: Json, dec: Json -> Option<T>): (r: Option<seq<T>>)
    ensures j.JList? ==> r == DecodeList(j.items, dec)
    ensures !j.JList? ==> r.None?
  {
    match j
    case JList(items) => DecodeList(items, dec)
    case _ => None
  }

  lemma {:induction false} ListRoundTrip<T>(xs: seq<T>, enc: T -> Json, dec: Json -> Option<T>)
    requires forall x | x in xs :: dec(enc(x)) == Some(x)
    ensures AsList(JList(EncodeList(xs, enc)), dec) == Some(xs)
  {
    var items := EncodeList(xs, enc);
    var r := DecodeList(items, dec);
    assert r.Some? by {
      forall k | 0 <= k < |items| ensures dec(items[k]).Some? {
        assert xs[k] in xs;
      }
    }
    assert r.value == xs by {
      forall k | 0 <= k < |xs| ensures r.value[k] == xs[k] {
        assert xs[k] in xs;
      }
    }
  }

  function EncodeMap<T>(m: map<string, T>, enc: T -> Json): (fields: map<string, Json>)
    ensures fields.Keys == m.Keys
    ensures forall k :: k in m ==> fields[k] == enc(m[k])
  {
    map k | k in m :: enc(m[k])
  }

  /** Decodes every entry; fails if any entry fails. */
  function DecodeMap<T>(fields: map<string, Json>, dec: Json -> Option<T>): (r: Option<map<string, T>>)
    ensures r.Some? <==> forall k :: k in fields ==> dec(fields[k]).Some?
    ensures r.Some? ==> r.value.Keys == fields.Keys
    ensures r.Some? ==> forall k :: k in fields ==> r.value[k] == dec(fields[k]).value
  {
    if forall k :: k in fields ==> dec(fields[k]).Some? then
      Some(map k | k in fields :: dec(fields[k]).value)
    else None
  }

  /** The dictionary field `j`, or `None` if it is not a dictionary. */
  function AsMap<T>(j: Json, dec: Json -> Option<T>): (r: Option<map<string, T>>)
    ensures j.JDict? ==> r == DecodeMap(j.fields, dec)
    ensures !j.JDict? ==> r.None?
  {
    match j
    case JDict(fields) => DecodeMap(fields, dec)
    case _ => None
  }

  lemma MapRoundTrip<T>(m: map<string, T>, enc: T -> Json, dec: Json -> Option<T>)
    requires forall k | k in m :: dec(enc(m[k])) == Some(m[k])
    ensures AsMap(JDict(EncodeMap(m, enc)), dec) == Some(m)
  {
    var r := DecodeMap(EncodeMap(m, enc), dec);
    assert r.Some?;
    assert r.value == m;
  }
}

=== FILE: player.dfy ===
/** The player's character sheet (models/player.py): every operation is a pure
    update returning the new sheet. */
module PlayerModel {
  import opened Wrappers
  import opened Builtins
  import opened Json

  const DefaultName: string := "冒险者"

  datatype Player = Player(
    name: string,
    level: int,
    health: int,
    maxHealth: int,
    experience: int,
    inventory: seq<string>,
    skills: map<string, int>,
    attributes: map<string, Value>)

  /** `Player(name=name)`: every other field at its default. */
  function NewPlayer(name: string): (p: Player)
    ensures p.name == name && p.level == 1 && p.experience == 0
    ensures p.health == p.maxHealth == 100
    ensures p.inventory == [] && p.skills == map[] && p.attributes == map[]
  {
    Player(name, 1, 100, 100, 0, [], map[], map[])
  }

  /** Health within its bounds. */
  predicate HealthInBounds(p: Player) {
    0 <= p.health <= p.maxHealth
  }

  /** The state `add_experience` leaves behind: a positive level and an
      experience below that level's threshold. */
  predicate Normalized(p: Player) {
    p.level >= 1 && 0 <= p.experience < p.level * 100
  }

  /** The fields no experience, health or inventory change may touch. */
  predicate SameIdentity(p: Player, q: Player) {
    p.name == q.name && p.skills == q.skills && p.attributes == q.attributes
  }

  // ---------------------------------------------------------------------------
  // Inventory
  // ---------------------------------------------------------------------------

  function AddItem(p: Player, item: string): (r: Player)
    ensures |r.inventory| == |p.inventory| + 1
    ensures r.inventory[|p.inventory|] == item
    ensures r.inventory[..|p.inventory|] == p.inventory
    ensures r.(inventory := p.inventory) == p
  {
    p.(inventory := p.inventory + [item])
  }

  function HasItem(p: Player, item: string): (b: bool)
    ensures b <==> exists i :: 0 <= i < |p.inventory| && p.inventory[i] == item
  {
    item in p.inventory
  }

  /** Removes the first occurrence of `item`; the flag says whether there was one. */
  function RemoveItem(p: Player, item: string): (res: (bool, Player))
    ensures res.0 <==> HasItem(p, item)
    ensures !res.0 ==> res.1 == p
    ensures res.0 ==> exists i :: 0 <= i < |p.inventory| && p.inventory[i] == item && item !in p.inventory[..i]
                                  && res.1.inventory == p.inventory[..i] + p.inventory[i + 1..]
    ensures multiset(res.1.inventory) == multiset(p.inventory) - multiset{item}
    ensures res.1.(inventory := p.inventory) == p
  {
    if item in p.inventory then (true, p.(inventory := RemoveFirst(p.inventory, item)))
    else (false, p)
  }

  /** Adding then removing an item keeps the inventory's contents; when the
      item was not held before, the sheet comes back exactly. */
  lemma AddThenRemove(p: Player, item: string)
    ensures RemoveItem(AddItem(p, item), item).0
    ensures multiset(RemoveItem(AddItem(p, item), item).1.inventory) == multiset(p.inventory)
    ensures !HasItem(p, item) ==> RemoveItem(AddItem(p, item), item).1 == p
  {
    var q := AddItem(p, item);
    assert q.inventory[|p.inventory|] == item;
    if !HasItem(p, item) {
      var r := RemoveItem(q, item).1;
      var i :| 0 <= i < |q.inventory| && q.inventory[i] == item && item !in q.inventory[..i]
               && r.inventory == q.inventory[..i] + q.inventory[i + 1..];
      assert i == |p.inventory|;
      assert r.inventory == p.inventory;
    }
  }

  // ---------------------------------------------------------------------------
  // Experience and levels
  // ---------------------------------------------------------------------------

  /** One level gained: ten more maximum health, and health refilled. */
  function LevelUp(p: Player): (r: Player)
    ensures r.level == p.level + 1
    ensures r.maxHealth == p.maxHealth + 10
    ensures HealthInBounds(r) <==> r.maxHealth >= 0
    ensures r.health == r.maxHealth
    ensures r.experience == p.experience && r.inventory == p.inventory && SameIdentity(p, r)
  {
    p.(level := p.level + 1, maxHealth := p.maxHealth + 10, health := p.maxHealth + 10)
  }

  /** Sum of the thresholds `l * 100` for `from <= l < to`. */
  ghost function Thresholds(from: int, to: int): int
    decreases to - from
  {
    if to <= from then 0 else from * 100 + Thresholds(from + 1, to)
  }

  /** The `while experience >= level * 100` loop of `add_experience`.
      It stops for every starting level: while the level is not positive the
      level rises towards 1, and from then on experience falls by at least
      100 per round. */
  function LevelUpLoop(p: Player): (r: Player)
    ensures r.experience < r.level * 100
    ensures r.level >= p.level
    ensures r.maxHealth == p.maxHealth + 10 * (r.level - p.level)
    ensures r.experience + Thresholds(p.level, r.level) == p.experience
    ensures r.level == p.level ==> r == p
    ensures r.level > p.level ==> r.health == r.maxHealth
    ensures p.level >= 1 && p.experience >= 0 ==> Normalized(r)
    ensures r.inventory == p.inventory && SameIdentity(p, r)
    decreases if p.level <= 0 then 1 - p.level else 0, p.experience
  {
    if p.experience >= p.level * 100 then
      LevelUpLoop(LevelUp(p.(experience := p.experience - p.level * 100)))
    else p
  }

  /** `add_experience`: add, then level up as long as a threshold is crossed. */
  function AddExperience(p: Player, exp: int): (r: Player)
    ensures r.experience < r.level * 100
    ensures r.level >= p.level
    ensures r.maxHealth == p.maxHealth + 10 * (r.level - p.level)
    ensures r.experience + Thresholds(p.level, r.level) == p.experience + exp
    ensures r.level == p.level ==> r == p.(experience := p.experience + exp)
    ensures r.level > p.level ==> r.health == r.maxHealth
    ensures p.level >= 1 && p.experience + exp >= 0 ==> Normalized(r)
    ensures r.inventory == p.inventory && SameIdentity(p, r)
  {
    LevelUpLoop(p.(experience := p.experience + exp))
  }

  /** The loop may be entered with more experience: the result is the same
      as running it first and adding the surplus afterwards. */
  lemma {:induction false} LevelUpLoopAbsorbs(q: Player, extra: int)
    requires extra >= 0
    ensures LevelUpLoop(LevelUpLoop(q).(experience := LevelUpLoop(q).experience + extra))
         == LevelUpLoop(q.(experience := q.experience + extra))
    decreases if q.level <= 0 then 1 - q.level else 0, q.experience
  {
    var big := q.(experience := q.experience + extra);
    if q.experience >= q.level * 100 {
      var q' := LevelUp(q.(experience := q.experience - q.level * 100));
      assert LevelUpLoop(q) == LevelUpLoop(q');
      assert LevelUp(big.(experience := big.experience - big.level * 100))
          == q'.(experience := q'.experience + extra);
      assert LevelUpLoop(big) == LevelUpLoop(q'.(experience := q'.experience + extra));
      LevelUpLoopAbsorbs(q', extra);
    } else {
      assert LevelUpLoop(q) == q;
    }
  }

  /** Splitting a gain in two: the second part non-negative, the result is
      that of one call with the sum. */
  lemma AddExperienceSplit(p: Player, a: int, b: int)
    requires b >= 0
    ensures AddExperience(AddExperience(p, a), b) == AddExperience(p, a + b)
  {
    LevelUpLoopAbsorbs(p.(experience := p.experience + a), b);
  }

  /** A gain that stays below the current level's threshold only adds to the
      experience. */
  lemma AddExperienceWithinLevel(p: Player, exp: int)
    requires p.experience + exp < p.level * 100
    ensures AddExperience(p, exp) == p.(experience := p.experience + exp)
  {
  }

  /** A gain that crosses exactly one threshold levels up once and keeps the
      surplus. */
  lemma AddExperienceOneLevel(p: Player, exp: int)
    requires p.level >= 0
    requires p.level * 100 <= p.experience + exp < p.level * 100 + (p.level + 1) * 100
    ensures AddExperience(p, exp) == LevelUp(p.(experience := p.experience + exp - p.level * 100))
  {
    var q := LevelUp(p.(experience := p.experience + exp - p.level * 100));
    assert LevelUpLoop(q) == q;
  }

  function Total(gains: seq<int>): int {
    if |gains| == 0 then 0 else gains[0] + Total(gains[1..])
  }

  /** Several `add_experience` calls in a row. */
  function AddExperienceAll(p: Player, gains: seq<int>): Player
    decreases |gains|
  {
    if |gains| == 0 then p else AddExperienceAll(AddExperience(p, gains[0]), gains[1..])
  }

  /** From the normalized state, a run of non-negative gains ends exactly
      where one call with their total ends. */
  lemma {:induction false} AddExperienceAllIsOneCall(p: Player, gains: seq<int>)
    requires Normalized(p)
    requires forall k :: 0 <= k < |gains| ==> gains[k] >= 0
    ensures AddExperienceAll(p, gains) == AddExperience(p, Total(gains))
    ensures Total(gains) >= 0
    decreases |gains|
  {
    if |gains| == 0 {
      assert LevelUpLoop(p) == p;
    } else {
      var p1 := AddExperience(p, gains[0]);
      AddExperienceAllIsOneCall(p1, gains[1..]);
      AddExperienceSplit(p, gains[0], Total(gains[1..]));
    }
  }

  // ---------------------------------------------------------------------------
  // Health
  // ---------------------------------------------------------------------------

  /** `heal`: health rises by `amount`, but never past `max_health`. */
  function Heal(p: Player, amount: int): (r: Player)
    ensures r.health <= p.maxHealth
    ensures r.health < p.maxHealth ==> r.health == p.health + amount
    ensures r.health == p.maxHealth ==> p.health + amount >= p.maxHealth
    ensures amount >= 0 && HealthInBounds(p) ==> HealthInBounds(r) && r.health >= p.health
    ensures r.(health := p.health) == p
  {
    p.(health := if p.health + amount < p.maxHealth then p.health + amount else p.maxHealth)
  }

  /** `take_damage`: health falls by `amount`, but never below zero. */
  function TakeDamage(p: Player, amount: int): (r: Player)
    ensures r.health >= 0
    ensures r.health > 0 ==> r.health == p.health - amount
    ensures r.health == 0 ==> p.health - amount <= 0
    ensures amount >= 0 && HealthInBounds(p) ==> HealthInBounds(r) && r.health <= p.health
    ensures r.(health := p.health) == p
  {
    p.(health := if 0 < p.health - amount then p.health - amount else 0)
  }

  predicate IsAlive(p: Player) {
    p.health > 0
  }

  /** Damage is lethal exactly when it reaches the current health; healing by a
      non-negative amount keeps a player alive whose maximum is positive. */
  lemma DamageAndSurvival(p: Player, d: int, h: int)
    ensures IsAlive(TakeDamage(p, d)) <==> p.health > d
    ensures IsAlive(p) && p.maxHealth > 0 && h >= 0 ==> IsAlive(Heal(p, h))
    ensures !IsAlive(TakeDamage(p, p.health))
  {
  }

  /** Experience never kills: health stays, or a level-up refills it to a
      maximum that only grew. */
  lemma ExperienceKeepsAlive(p: Player, exp: int)
    requires 0 < p.health <= p.maxHealth
    ensures IsAlive(AddExperience(p, exp))
  {
    var r := AddExperience(p, exp);
    if r.level > p.level {
      assert r.maxHealth >= p.maxHealth + 10;
    }
  }

  /** Damage followed by healing, both non-negative, keeps health in bounds. */
  lemma DamageThenHealInBounds(p: Player, d: int, h: int)
    requires HealthInBounds(p) && d >= 0 && h >= 0
    ensures HealthInBounds(Heal(TakeDamage(p, d), h))
  {
  }

  /** A level-up keeps health in bounds whenever maximum health stays non-negative. */
  lemma AddExperienceKeepsHealthInBounds(p: Player, exp: int)
    requires HealthInBounds(p)
    ensures HealthInBounds(AddExperience(p, exp))
  {
  }

  // ---------------------------------------------------------------------------
  // Dictionary form
  // ---------------------------------------------------------------------------

  /** `to_dict`. */
  function ToDict(p: Player): Json {
    JDict(map[
      "name" := JStr(p.name),
      "level" := JInt(p.level),
      "health" := JInt(p.health),
      "max_health" := JInt(p.maxHealth),
      "experience" := JInt(p.experience),
      "inventory" := JList(EncodeList(p.inventory, StrToJson)),
      "skills" := JDict(EncodeMap(p.skills, IntToJson)),
      "attributes" := JDict(EncodeMap(p.attributes, FromValue))])
  }

  /** `from_dict`: each key is looked up on its own; a present key gives its
      value and a missing one its default. `None` if the input is not a
      dictionary or a present value has the wrong shape. */
  function FromDict(j: Json): (r: Option<Player>)
    ensures j == JDict(map[]) ==> r == Some(NewPlayer(DefaultName))
    ensures !j.JDict? ==> r.None?
    ensures j.JDict? ==> (r.Some? <==>
      var d := j.fields;
      && Loads(d, "name", AsStr) && Loads(d, "level", AsInt) && Loads(d, "health", AsInt)
      && Loads(d, "max_health", AsInt) && Loads(d, "experience", AsInt)
      && Loads(d, "inventory", x => AsList(x, AsStr))
      && Loads(d, "skills", x => AsMap(x, AsInt))
      && Loads(d, "attributes", x => AsMap(x, AsValue)))
    ensures r.Some? ==> var d := j.fields; var q := r.value;
      && ("name" in d ==> d["name"] == JStr(q.name)) && ("name" !in d ==> q.name == DefaultName)
      && ("level" in d ==> d["level"] == JInt(q.level)) && ("level" !in d ==> q.level == 1)
      && ("health" in d ==> d["health"] == JInt(q.health)) && ("health" !in d ==> q.health == 100)
      && ("max_health" in d ==> d["max_health"] == JInt(q.maxHealth)) && ("max_health" !in d ==> q.maxHealth == 100)
      && ("experience" in d ==> d["experience"] == JInt(q.experience)) && ("experience" !in d ==> q.experience == 0)
      && ("inventory" in d ==> AsList(d["inventory"], AsStr) == Some(q.inventory)) && ("inventory" !in d ==> q.inventory == [])
      && ("skills" in d ==> AsMap(d["skills"], AsInt) == Some(q.skills)) && ("skills" !in d ==> q.skills == map[])
      && ("attributes" in d ==> AsMap(d["attributes"], AsValue) == Some(q.attributes))
      && ("attributes" !in d ==> q.attributes == map[])
  {
    if !j.JDict? then None
    else
      var d := j.fields;
      var name :- AsStr(Get(d, "name", JStr(DefaultName)));
      var level :- AsInt(Get(d, "level", JInt(1)));
      var health :- AsInt(Get(d, "health", JInt(100)));
      var maxHealth :- AsInt(Get(d, "max_health", JInt(100)));
      var experience :- AsInt(Get(d, "experience", JInt(0)));
      var inventory :- AsList(Get(d, "inventory", JList([])), AsStr);
      var skills :- AsMap(Get(d, "skills", JDict(map[])), AsInt);
      var attributes :- AsMap(Get(d, "attributes", JDict(map[])), AsValue);
      Some(Player(name, level, health, maxHealth, experience, inventory, skills, attributes))
  }

  /** `Player.from_dict(p.to_dict()) == p`. */
  lemma DictRoundTrip(p: Player)
    ensures FromDict(ToDict(p)) == Some(p)
  {
    var d := ToDict(p).fields;
    assert Get(d, "name", JStr(DefaultName)) == JStr(p.name);
    assert Get(d, "level", JInt(1)) == JInt(p.level);
    assert Get(d, "health", JInt(100)) == JInt(p.health);
    assert Get(d, "max_health", JInt(100)) == JInt(p.maxHealth);
    assert Get(d, "experience", JInt(0)) == JInt(p.experience);
    assert Get(d, "inventory", JList([])) == JList(EncodeList(p.inventory, StrToJson));
    assert Get(d, "skills", JDict(map[])) == JDict(EncodeMap(p.skills, IntToJson));
    assert Get(d, "attributes", JDict(map[])) == JDict(EncodeMap(p.attributes, FromValue));
    ListRoundTrip(p.inventory, StrToJson, AsStr);
    MapRoundTrip(p.skills, IntToJson, AsInt);
    forall k | k in p.attributes ensures AsValue(FromValue(p.attributes[k])) == Some(p.attributes[k]) {
      ValueRoundTrip(p.attributes[k]);
    }
    MapRoundTrip(p.attributes, FromValue, AsValue);
  }
}

=== FILE: state_manager.dfy ===
/** The in-memory part of the game state manager (state_manager.py): one
    player sheet and one story state, and the delegating operations on them. */
module StateManager {
  import opened Wrappers
  import opened Builtins
  import opened Json
  import opened PlayerModel
  import opened StoryModel

  datatype Manager = Manager(player: Player, story: StoryState)

  /** Python truthiness of an optional string argument. */
  predicate IsGiven(choice: Option<string>) {
    choice.Some? && choice.value != ""
  }

  /** `create_new_game(name)`: a fresh player with that name and a fresh story. */
  function CreateNewGame(name: string): (m: Manager)
    ensures m.player.name == name && m.player == NewPlayer(name)
    ensures m.story.currentSceneId == "scene_0" && m.story.history == []
    ensures !m.story.isEnded && m.story.branchCount == map[] && m.story.storyFlags == map[]
    ensures m.story.currentDescription == "" && m.story.currentOptions == [] && m.story.endingType.None?
  {
    Manager(NewPlayer(name), Initial)
  }

  /** `update_story`: record the choice (when one is given) on the story as it
      stands, then move on to the new scene. The choice therefore lands on the
      node that was last in history before the call, not on the scene it was
      made from; that scene is archived afterwards with no choice. */
  function UpdateStory(m: Manager, sceneId: string, description: string, options: seq<string>,
                       choice: Option<string>, now: Timestamp): (r: Manager)
    ensures r.player == m.player
    ensures r.story.currentSceneId == sceneId && r.story.currentDescription == description
    ensures r.story.currentOptions == options
    ensures var n := |m.story.history|;
      && (m.story.currentSceneId != "" ==>
            |r.story.history| == n + 1 && r.story.history[n] == CurrentAsNode(m.story, now))
      && (m.story.currentSceneId == "" ==> |r.story.history| == n)
      && (forall k :: 0 <= k < n - 1 ==> r.story.history[k] == m.story.history[k])
      && (n > 0 ==> r.story.history[n - 1] == m.story.history[n - 1].(playerChoice :=
            if IsGiven(choice) then choice else m.story.history[n - 1].playerChoice))
    ensures IsGiven(choice) ==> ChoiceCount(r.story, choice.value) == ChoiceCount(m.story, choice.value) + 1
    ensures forall c :: !(IsGiven(choice) && c == choice.value) ==> ChoiceCount(r.story, c) == ChoiceCount(m.story, c)
    ensures !IsGiven(choice) ==> r.story.branchCount == m.story.branchCount
    ensures r.story.storyFlags == m.story.storyFlags
    ensures r.story.isEnded == m.story.isEnded && r.story.endingType == m.story.endingType
  {
    var story := if IsGiven(choice) then RecordChoice(m.story, choice.value) else m.story;
    m.(story := AddScene(story, sceneId, description, options, now))
  }

  function SetStoryFlag(m: Manager, name: string, value: Value): (r: Manager)
    ensures r == m.(story := SetFlag(m.story, name, value))
    ensures forall d :: GetStoryFlag(r, name, d) == value
  {
    m.(story := SetFlag(m.story, name, value))
  }

  function GetStoryFlag(m: Manager, name: string, default: Value): (v: Value)
    ensures v == GetFlag(m.story, name, default)
    ensures HasFlag(m.story, name) ==> v == m.story.storyFlags[name]
    ensures !HasFlag(m.story, name) ==> v == default
  {
    GetFlag(m.story, name, default)
  }

  function AddPlayerItem(m: Manager, item: string): (r: Manager)
    ensures r == m.(player := AddItem(m.player, item))
    ensures HasItem(r.player, item) && r.story == m.story
    ensures multiset(r.player.inventory) == multiset(m.player.inventory) + multiset{item}
  {
    m.(player := AddItem(m.player, item))
  }

  /** `player_use_item`: exactly `remove_item`'s answer and effect. */
  function PlayerUseItem(m: Manager, item: string): (res: (bool, Manager))
    ensures res.0 == RemoveItem(m.player, item).0
    ensures res.1 == m.(player := RemoveItem(m.player, item).1)
    ensures res.0 <==> HasItem(m.player, item)
  {
    var (found, p) := RemoveItem(m.player, item);
    (found, m.(player := p))
  }

  /** `player_gain_experience`: the player's `add_experience`; the level-up
      branch of `player_gain_experience` does nothing else. */
  function PlayerGainExperience(m: Manager, exp: int): (r: Manager)
    ensures r == m.(player := AddExperience(m.player, exp))
    ensures r.story == m.story && r.player.inventory == m.player.inventory
    ensures r.player.level >= m.player.level
    ensures r.player.level > m.player.level ==> r.player.health == r.player.maxHealth
  {
    m.(player := AddExperience(m.player, exp))
  }

  /** The `player_status` part of the current-state view. */
  function PlayerStatus(p: Player): (status: map<string, Json>)
    ensures status.Keys == {"name", "level", "health", "max_health", "inventory"}
    ensures status["name"] == JStr(p.name) && status["level"] == JInt(p.level)
    ensures status["health"] == JInt(p.health) && status["max_health"] == JInt(p.maxHealth)
    ensures AsList(status["inventory"], AsStr) == Some(p.inventory)
  {
    ListRoundTrip(p.inventory, StrToJson, AsStr);
    map[
      "name" := JStr(p.name),
      "level" := JInt(p.level),
      "health" := JInt(p.health),
      "max_health" := JInt(p.maxHealth),
      "inventory" := JList(EncodeList(p.inventory, StrToJson))]
  }

  /** `get_current_state`: what the presentation layer is shown. It carries
      no `option_events` entry. */
  function GetCurrentState(m: Manager): (view: Json)
    ensures view.JDict?
    ensures view.fields.Keys == {"description", "options", "is_end", "player_status"}
    ensures "option_events" !in view.fields
    ensures view.fields["description"] == JStr(m.story.currentDescription)
    ensures AsList(view.fields["options"], AsStr) == Some(m.story.currentOptions)
    ensures view.fields["is_end"] == JBool(m.story.isEnded)
    ensures view.fields["player_status"] == JDict(PlayerStatus(m.player))
  {
    ListRoundTrip(m.story.currentOptions, StrToJson, AsStr);
    JDict(map[
      "description" := JStr(m.story.currentDescription),
      "options" := JList(EncodeList(m.story.currentOptions, StrToJson)),
      "is_end" := JBool(m.story.isEnded),
      "player_status" := JDict(PlayerStatus(m.player))])
  }

  /** `get_story_context`: the story's context, always with history. */
  function GetStoryContext(m: Manager): (ctx: string)
    ensures ctx == StoryContext(m.story, true)
    ensures StartsWith(ctx, HistoryHeader) <==> CanGoBack(m.story)
    ensures |m.story.history| == 0 ==> ctx == CurrentLabel + m.story.currentDescription
  {
    StoryContext(m.story, true)
  }

  /** `go_back`: the story's answer and effect; the player is untouched. */
  function GoBackGame(m: Manager): (res: (bool, Manager))
    ensures res.0 == GoBack(m.story).0 && res.1 == m.(story := GoBack(m.story).1)
    ensures res.0 <==> CanGoBack(m.story)
  {
    var (ok, story) := GoBack(m.story);
    (ok, m.(story := story))
  }

  /** `end_game(ending_type)`. */
  function EndGame(m: Manager, endingType: string): (r: Manager)
    ensures r == m.(story := EndStory(m.story, endingType))
    ensures r.story.isEnded && r.story.endingType == Some(endingType)
  {
    m.(story := EndStory(m.story, endingType))
  }

  /** The sample flow at the bottom of state_manager.py: the choice "敲门",
      made in scene_1, is written onto scene_0, and scene_1 is archived with
      no choice. */
  lemma SampleFlow(t1: Timestamp, t2: Timestamp)
    ensures var m0 := CreateNewGame("测试玩家");
      var m1 := UpdateStory(m0, "scene_1", "你站在一座古老的城堡前，大门紧闭。", ["敲门", "寻找其他入口", "离开"], None, t1);
      var m2 := UpdateStory(m1, "scene_2", "你敲了敲门，一个老管家打开了门。", ["进入城堡", "询问情况", "道歉离开"], Some("敲门"), t2);
      && |m2.story.history| == 2
      && m2.story.history[0] == StoryNode("scene_0", "", [], Some("敲门"), t1)
      && m2.story.history[1] == StoryNode("scene_1", "你站在一座古老的城堡前，大门紧闭。", ["敲门", "寻找其他入口", "离开"], None, t2)
      && m2.story.currentSceneId == "scene_2"
      && ChoiceCount(m2.story, "敲门") == 1
  {
  }
}

=== FILE: story_state.dfy ===
/** The story's position in the scene graph (models/story_state.py): the
    current scene, the append-only history of past scenes, story flags,
    per-choice counters and the ending marker. */
module StoryModel {
  import opened Wrappers
  import opened Builtins
  import opened Json

  /** A creation time, kept as the ISO-8601 text that `to_dict` writes;
      the model does not interpret it. */
  datatype Timestamp = Timestamp(iso: string)

  /** One past scene, with the choice made there once it is known. */
  datatype StoryNode = StoryNode(
    sceneId: string,
    description: string,
    options: seq<string>,
    playerChoice: Option<string>,
    timestamp: Timestamp)

  datatype StoryState = StoryState(
    currentSceneId: string,
    currentDescription: string,
    currentOptions: seq<string>,
    history: seq<StoryNode>,
    storyFlags: map<string, Value>,
    branchCount: map<string, int>,
    isEnded: bool,
    endingType: Option<string>)

  const InitialSceneId: string := "scene_0"

  /** `StoryState()`. */
  const Initial: StoryState :=
    StoryState(InitialSceneId, "", [], [], map[], map[], false, None)

  /** The fields that no scene or history change touches. */
  predicate SameBookkeeping(s: StoryState, t: StoryState) {
    s.storyFlags == t.storyFlags && s.branchCount == t.branchCount
    && s.isEnded == t.isEnded && s.endingType == t.endingType
  }

  /** The current scene, as it would be archived at time `now`. */
  function CurrentAsNode(s: StoryState, now: Timestamp): StoryNode {
    StoryNode(s.currentSceneId, s.currentDescription, s.currentOptions, None, now)
  }

  // ---------------------------------------------------------------------------
  // Scenes and history
  // ---------------------------------------------------------------------------

  /** `add_scene`: archive the current scene (if it has an id) and make the
      given scene current. `now` is the archived node's creation time. */
  function AddScene(s: StoryState, sceneId: string, description: string, options: seq<string>, now: Timestamp)
    : (r: StoryState)
    ensures s.currentSceneId != "" ==> r.history == s.history + [CurrentAsNode(s, now)]
    ensures s.currentSceneId == "" ==> r.history == s.history
    ensures r.history[..|s.history|] == s.history
    ensures r.currentSceneId == sceneId && r.currentDescription == description && r.currentOptions == options
    ensures SameBookkeeping(s, r)
  {
    var history := if s.currentSceneId != "" then s.history + [CurrentAsNode(s, now)] else s.history;
    s.(history := history, currentSceneId := sceneId, currentDescription := description, currentOptions := options)
  }

  /** How often `choice` has been recorded (absent counts as zero). */
  function ChoiceCount(s: StoryState, choice: string): int {
    if choice in s.branchCount then s.branchCount[choice] else 0
  }

  /** `record_choice`: mark the most recent history node with the choice and
      count it. */
  function RecordChoice(s: StoryState, choice: string): (r: StoryState)
    ensures |r.history| == |s.history|
    ensures |s.history| > 0 ==>
      r.history == s.history[..|s.history| - 1] + [s.history[|s.history| - 1].(playerChoice := Some(choice))]
    ensures |s.history| == 0 ==> r.history == []
    ensures r.branchCount.Keys == s.branchCount.Keys + {choice}
    ensures ChoiceCount(r, choice) == ChoiceCount(s, choice) + 1
    ensures forall c :: c != choice ==> ChoiceCount(r, c) == ChoiceCount(s, c)
    ensures r.currentSceneId == s.currentSceneId && r.currentDescription == s.currentDescription
    ensures r.currentOptions == s.currentOptions
    ensures r.storyFlags == s.storyFlags && r.isEnded == s.isEnded && r.endingType == s.endingType
  {
    var history :=
      if |s.history| > 0 then
        s.history[..|s.history| - 1] + [s.history[|s.history| - 1].(playerChoice := Some(choice))]
      else s.history;
    var count := if choice in s.branchCount then s.branchCount[choice] + 1 else 1;
    s.(history := history, branchCount := s.branchCount[choice := count])
  }

  predicate CanGoBack(s: StoryState) {
    |s.history| > 0
  }

  /** `go_back`: pop the most recent node and make it current again; the flag
      says whether there was one. */
  function GoBack(s: StoryState): (res: (bool, StoryState))
    ensures res.0 <==> CanGoBack(s)
    ensures !res.0 ==> res.1 == s
    ensures res.0 ==> res.1.history == s.history[..|s.history| - 1]
    ensures res.0 ==>
      var last := s.history[|s.history| - 1];
      res.1.currentSceneId == last.sceneId && res.1.currentDescription == last.description
      && res.1.currentOptions == last.options
    ensures SameBookkeeping(s, res.1)
  {
    if !CanGoBack(s) then (false, s)
    else
      var last := s.history[|s.history| - 1];
      (true, s.(history := s.history[..|s.history| - 1],
                currentSceneId := last.sceneId,
                currentDescription := last.description,
                currentOptions := last.options))
  }

  /** There is somewhere to go back to after moving on from a scene with an id,
      and going back leaves a way back exactly when two or more nodes were
      archived. */
  lemma CanGoBackAfterMoves(s: StoryState, sceneId: string, description: string, options: seq<string>, now: Timestamp)
    ensures CanGoBack(AddScene(s, sceneId, description, options, now)) <==> s.currentSceneId != "" || CanGoBack(s)
    ensures CanGoBack(GoBack(s).1) <==> |s.history| > 1
  {
  }

  /** Going back right after moving on from a scene with an id returns to
      exactly where the story was. */
  lemma AddSceneThenGoBack(s: StoryState, sceneId: string, description: string, options: seq<string>, now: Timestamp)
    requires s.currentSceneId != ""
    ensures GoBack(AddScene(s, sceneId, description, options, now)) == (true, s)
  {
    var t := AddScene(s, sceneId, description, options, now);
    assert t.history[..|t.history| - 1] == s.history;
  }

  // ---------------------------------------------------------------------------
  // Flags and ending
  // ---------------------------------------------------------------------------

  function SetFlag(s: StoryState, name: string, value: Value): (r: StoryState)
    ensures forall d :: GetFlag(r, name, d) == value
    ensures forall n, d :: n != name ==> GetFlag(r, n, d) == GetFlag(s, n, d)
    ensures HasFlag(r, name)
    ensures r.(storyFlags := s.storyFlags) == s
  {
    s.(storyFlags := s.storyFlags[name := value])
  }

  /** `get_flag(name, default)`. */
  function GetFlag(s: StoryState, name: string, default: Value): (v: Value)
    ensures !HasFlag(s, name) ==> v == default
    ensures HasFlag(s, name) ==> v == s.storyFlags[name]
  {
    if name in s.storyFlags then s.storyFlags[name] else default
  }

  predicate HasFlag(s: StoryState, name: string) {
    name in s.storyFlags
  }

  /** Setting a flag makes exactly that name present, besides the names that
      were present before. */
  lemma HasFlagAfterSetFlag(s: StoryState, name: string, value: Value, other: string)
    ensures HasFlag(SetFlag(s, name, value), other) <==> other == name || HasFlag(s, other)
    ensures HasFlag(s, other) ==> GetFlag(s, other, VNone) == s.storyFlags[other]
  {
  }

  /** `end_story`: marks the end; options and history stay as they are. */
  function EndStory(s: StoryState, endingType: string): (r: StoryState)
    ensures r.isEnded && r.endingType == Some(endingType)
    ensures r.(isEnded := s.isEnded, endingType := s.endingType) == s
  {
    s.(isEnded := true, endingType := Some(endingType))
  }

  // ---------------------------------------------------------------------------
  // Summaries
  // ---------------------------------------------------------------------------

  const ChoiceOpen: string := " (选择: "
  const ChoiceClose: string := ")"

  /** Whether a node carries a choice worth showing (a non-empty string). */
  predicate ShowsChoice(n: StoryNode) {
    n.playerChoice.Some? && n.playerChoice.value != ""
  }

  /** One summary line: the description, then the choice in brackets if any. */
  function SummaryLine(n: StoryNode): (line: string)
    ensures StartsWith(line, n.description)
    ensures ShowsChoice(n) <==> |line| > |n.description|
    ensures ShowsChoice(n) ==> line[|n.description|..] == ChoiceOpen + n.playerChoice.value + ChoiceClose
  {
    if ShowsChoice(n) then n.description + ChoiceOpen + n.playerChoice.value + ChoiceClose
    else n.description
  }

  function SummaryLines(nodes: seq<StoryNode>): (lines: seq<string>)
    ensures |lines| == |nodes|
    ensures forall k :: 0 <= k < |nodes| ==> lines[k] == SummaryLine(nodes[k])
  {
    if |nodes| == 0 then [] else [SummaryLine(nodes[0])] + SummaryLines(nodes[1..])
  }

  /** Where Python's `xs[-m:]` starts on a list of length `n`. */
  function TailStart(n: nat, m: int): (start: nat)
    ensures start <= n
    ensures m >= 1 ==> n - start == (if m < n then m else n)
    ensures m == 0 ==> start == 0
  {
    if -m < 0 then (if n - m < 0 then 0 else n - m) else if -m < n then -m else n
  }

  /** `get_history_summary(max_entries)`: one line per node of the last
      `max_entries` history nodes, oldest first. Python's `history[-0:]` is the
      whole list, so `max_entries == 0` summarises everything. */
  function HistorySummary(s: StoryState, maxEntries: int): (lines: seq<string>)
    ensures maxEntries >= 1 ==> |lines| == (if maxEntries < |s.history| then maxEntries else |s.history|)
    ensures maxEntries == 0 ==> |lines| == |s.history|
    ensures |lines| <= |s.history|
    ensures forall k :: 0 <= k < |lines| ==> lines[k] == SummaryLine(s.history[|s.history| - |lines| + k])
  {
    if |s.history| == 0 then []
    else SummaryLines(s.history[TailStart(|s.history|, maxEntries)..])
  }

  const HistoryHeader: string := "之前的经历:\n"
  const CurrentLabel: string := "当前情况: "
  const DefaultSummaryEntries: int := 5

  /** The `- line\n` bullets of a summary. */
  function Bullets(lines: seq<string>): string {
    if |lines| == 0 then "" else "- " + lines[0] + "\n" + Bullets(lines[1..])
  }

  /** Bulleting a list one line longer appends one bullet: the step of the
      loop that builds the context. */
  lemma {:induction false} BulletsSnoc(lines: seq<string>, line: string)
    ensures Bullets(lines + [line]) == Bullets(lines) + "- " + line + "\n"
  {
    if |lines| == 0 {
      assert lines + [line] == [line];
    } else {
      assert (lines + [line])[1..] == lines[1..] + [line];
      BulletsSnoc(lines[1..], line);
    }
  }

  /** `get_story_context(include_history)`. With history, the header, one
      bullet per summary line, a blank line, and then the current situation. */
  function StoryContext(s: StoryState, includeHistory: bool): (ctx: string)
    ensures includeHistory && |s.history| > 0 ==>
      ctx == HistoryHeader + Bullets(HistorySummary(s, DefaultSummaryEntries)) + "\n" + CurrentLabel + s.currentDescription
    ensures |ctx| >= |CurrentLabel + s.currentDescription|
    ensures ctx[|ctx| - |CurrentLabel + s.currentDescription|..] == CurrentLabel + s.currentDescription
    ensures StartsWith(ctx, HistoryHeader) <==> includeHistory && |s.history| > 0
    ensures !(includeHistory && |s.history| > 0) ==> ctx == CurrentLabel + s.currentDescription
  {
    var current := CurrentLabel + s.currentDescription;
    if includeHistory && |s.history| > 0 then
      var ctx := HistoryHeader + Bullets(HistorySummary(s, DefaultSummaryEntries)) + "\n" + current;
      assert ctx[..|HistoryHeader|] == HistoryHeader;
      ctx
    else
      assert current[0] != HistoryHeader[0];
      current
  }

  /** The loop of `get_story_context`: append one bullet per line to `ctx`. */
  method AppendBullets(ctx0: string, lines: seq<string>) returns (ctx: string)
    ensures ctx == ctx0 + Bullets(lines)
  {
    ctx := ctx0;
    var i := 0;
    while i < |lines|
      invariant 0 <= i <= |lines|
      invariant ctx == ctx0 + Bullets(lines[..i])
    {
      var bullet := "- " + lines[i] + "\n";
      BulletsSnoc(lines[..i], lines[i]);
      assert lines[..i + 1] == lines[..i] + [lines[i]];
      ctx := ctx + bullet;
      i := i + 1;
    }
    assert lines[..i] == lines;
  }

  /** `get_story_context` as its loop builds it: the context grows by
      appending, and ends up as `StoryContext`. */
  method BuildStoryContext(s: StoryState, includeHistory: bool) returns (ctx: string)
    ensures ctx == StoryContext(s, includeHistory)
  {
    ctx := "";
    if includeHistory && |s.history| > 0 {
      ctx := AppendBullets(ctx + HistoryHeader, HistorySummary(s, DefaultSummaryEntries));
      ctx := ctx + "\n";
    }
    ctx := ctx + (CurrentLabel + s.currentDescription);
  }

  // ---------------------------------------------------------------------------
  // Dictionary form
  // ---------------------------------------------------------------------------

  /** `StoryNode.to_dict`. */
  function NodeToDict(n: StoryNode): Json {
    JDict(map[
      "scene_id" := JStr(n.sceneId),
      "description" := JStr(n.description),
      "options" := JList(EncodeList(n.options, StrToJson)),
      "player_choice" := FromOptStr(n.playerChoice),
      "timestamp" := JStr(n.timestamp.iso)])
  }

  /** `StoryNode.from_dict`: every key but `player_choice` is required. */
  function NodeFromDict(j: Json): (r: Option<StoryNode>)
    ensures r.Some? <==>
      && j.JDict?
      && "scene_id" in j.fields && AsStr(j.fields["scene_id"]).Some?
      && "description" in j.fields && AsStr(j.fields["description"]).Some?
      && "options" in j.fields && AsList(j.fields["options"], AsStr).Some?
      && "timestamp" in j.fields && AsStr(j.fields["timestamp"]).Some?
      && Loads(j.fields, "player_choice", AsOptStr)
    ensures r.Some? ==> var d := j.fields; var n := r.value;
      && d["scene_id"] == JStr(n.sceneId) && d["description"] == JStr(n.description)
      && AsList(d["options"], AsStr) == Some(n.options) && d["timestamp"] == JStr(n.timestamp.iso)
      && ("player_choice" in d ==> d["player_choice"] == FromOptStr(n.playerChoice))
      && ("player_choice" !in d ==> n.playerChoice.None?)
  {
    if !j.JDict? then None
    else
      var d := j.fields;
      if "scene_id" !in d || "description" !in d || "options" !in d || "timestamp" !in d then None
      else
        var sceneId :- AsStr(d["scene_id"]);
        var description :- AsStr(d["description"]);
        var options :- AsList(d["options"], AsStr);
        var choice :- AsOptStr(Get(d, "player_choice", JNull));
        var iso :- AsStr(d["timestamp"]);
        Some(StoryNode(sceneId, description, options, choice, Timestamp(iso)))
  }

  lemma NodeRoundTrip(n: StoryNode)
    ensures NodeFromDict(NodeToDict(n)) == Some(n)
  {
    var d := NodeToDict(n).fields;
    assert d["scene_id"] == JStr(n.sceneId);
    assert d["description"] == JStr(n.description);
    assert d["options"] == JList(EncodeList(n.options, StrToJson));
    assert Get(d, "player_choice", JNull) == FromOptStr(n.playerChoice);
    assert d["timestamp"] == JStr(n.timestamp.iso);
    ListRoundTrip(n.options, StrToJson, AsStr);
    OptStrRoundTrip(n.playerChoice);
  }

  /** `StoryState.to_dict`. */
  function ToDict(s: StoryState): Json {
    JDict(map[
      "current_scene_id" := JStr(s.currentSceneId),
      "current_description" := JStr(s.currentDescription),
      "current_options" := JList(EncodeList(s.currentOptions, StrToJson)),
      "history" := JList(EncodeList(s.history, NodeToDict)),
      "story_flags" := JDict(EncodeMap(s.storyFlags, FromValue)),
      "branch_count" := JDict(EncodeMap(s.branchCount, IntToJson)),
      "is_ended" := JBool(s.isEnded),
      "ending_type" := FromOptStr(s.endingType)])
  }

  /** `StoryState.from_dict`: each key is looked up on its own; a present key
      gives its value and a missing one its default. `None` if the input is
      not a dictionary or a present value has the wrong shape. */
  function FromDict(j: Json): (r: Option<StoryState>)
    ensures j == JDict(map[]) ==> r == Some(Initial)
    ensures !j.JDict? ==> r.None?
    ensures j.JDict? ==> (r.Some? <==>
      var d := j.fields;
      && Loads(d, "history", x => AsList(x, NodeFromDict))
      && Loads(d, "current_scene_id", AsStr) && Loads(d, "current_description", AsStr)
      && Loads(d, "current_options", x => AsList(x, AsStr))
      && Loads(d, "story_flags", x => AsMap(x, AsValue))
      && Loads(d, "branch_count", x => AsMap(x, AsInt))
      && Loads(d, "is_ended", AsBool) && Loads(d, "ending_type", AsOptStr))
  {
    if !j.JDict? then None
    else
      var d := j.fields;
      var history :- AsList(Get(d, "history", JList([])), NodeFromDict);
      var sceneId :- AsStr(Get(d, "current_scene_id", JStr(InitialSceneId)));
      var description :- AsStr(Get(d, "current_description", JStr("")));
      var options :- AsList(Get(d, "current_options", JList([])), AsStr);
      var flags :- AsMap(Get(d, "story_flags", JDict(map[])), AsValue);
      var counts :- AsMap(Get(d, "branch_count", JDict(map[])), AsInt);
      var isEnded :- AsBool(Get(d, "is_ended", JBool(false)));
      var endingType :- AsOptStr(Get(d, "ending_type", JNull));
      Some(StoryState(sceneId, description, options, history, flags, counts, isEnded, endingType))
  }

  /** What a loaded story state holds, key by key: a present key's value, or
      the default of a missing one. */
  lemma FromDictPerKey(j: Json)
    requires j.JDict? && FromDict(j).Some?
    ensures var d := j.fields; var t := FromDict(j).value;
      && ("history" in d ==> AsList(d["history"], NodeFromDict) == Some(t.history))
      && ("history" !in d ==> t.history == [])
      && ("current_scene_id" in d ==> d["current_scene_id"] == JStr(t.currentSceneId))
      && ("current_scene_id" !in d ==> t.currentSceneId == InitialSceneId)
      && ("current_description" in d ==> d["current_description"] == JStr(t.currentDescription))
      && ("current_description" !in d ==> t.currentDescription == "")
      && ("current_options" in d ==> AsList(d["current_options"], AsStr) == Some(t.currentOptions))
      && ("current_options" !in d ==> t.currentOptions == [])
      && ("story_flags" in d ==> AsMap(d["story_flags"], AsValue) == Some(t.storyFlags))
      && ("story_flags" !in d ==> t.storyFlags == map[])
      && ("branch_count" in d ==> AsMap(d["branch_count"], AsInt) == Some(t.branchCount))
      && ("branch_count" !in d ==> t.branchCount == map[])
      && ("is_ended" in d ==> d["is_ended"] == JBool(t.isEnded)) && ("is_ended" !in d ==> !t.isEnded)
      && ("ending_type" in d ==> d["ending_type"] == FromOptStr(t.endingType))
      && ("ending_type" !in d ==> t.endingType.None?)
  {
  }

  lemma HistoryRoundTrip(history: seq<StoryNode>)
    ensures AsList(JList(EncodeList(history, NodeToDict)), NodeFromDict) == Some(history)
  {
    forall n | n in history ensures NodeFromDict(NodeToDict(n)) == Some(n) {
      NodeRoundTrip(n);
    }
    ListRoundTrip(history, NodeToDict, NodeFromDict);
  }

  /** Each key of a saved story state decodes back to its field. */
  lemma DecodedFields(s: StoryState)
    ensures var d := ToDict(s).fields;
      && AsList(Get(d, "history", JList([])), NodeFromDict) == Some(s.history)
      && AsStr(Get(d, "current_scene_id", JStr(InitialSceneId))) == Some(s.currentSceneId)
      && AsStr(Get(d, "current_description", JStr(""))) == Some(s.currentDescription)
      && AsList(Get(d, "current_options", JList([])), AsStr) == Some(s.currentOptions)
      && AsMap(Get(d, "story_flags", JDict(map[])), AsValue) == Some(s.storyFlags)
      && AsMap(Get(d, "branch_count", JDict(map[])), AsInt) == Some(s.branchCount)
      && AsBool(Get(d, "is_ended", JBool(false))) == Some(s.isEnded)
      && AsOptStr(Get(d, "ending_type", JNull)) == Some(s.endingType)
  {
    var d := ToDict(s).fields;
    assert Get(d, "history", JList([])) == JList(EncodeList(s.history, NodeToDict));
    assert Get(d, "current_scene_id", JStr(InitialSceneId)) == JStr(s.currentSceneId);
    assert Get(d, "current_description", JStr("")) == JStr(s.currentDescription);
    assert Get(d, "current_options", JList([])) == JList(EncodeList(s.currentOptions, StrToJson));
    assert Get(d, "story_flags", JDict(map[])) == JDict(EncodeMap(s.storyFlags, FromValue));
    assert Get(d, "branch_count", JDict(map[])) == JDict(EncodeMap(s.branchCount, IntToJson));
    assert Get(d, "is_ended", JBool(false)) == JBool(s.isEnded);
    assert Get(d, "ending_type", JNull) == FromOptStr(s.endingType);
    HistoryRoundTrip(s.history);
    ListRoundTrip(s.currentOptions, StrToJson, AsStr);
    forall k | k in s.storyFlags ensures AsValue(FromValue(s.storyFlags[k])) == Some(s.storyFlags[k]) {
      ValueRoundTrip(s.storyFlags[k]);
    }
    MapRoundTrip(s.storyFlags, FromValue, AsValue);
    MapRoundTrip(s.branchCount, IntToJson, AsInt);
    OptStrRoundTrip(s.endingType);
  }

  /** `StoryState.from_dict(s.to_dict()) == s`, history order included. */
  lemma DictRoundTrip(s: StoryState)
    ensures FromDict(ToDict(s)) == Some(s)
  {
    DecodedFields(s);
  }
}

=== FILE: wrappers.dfy ===
/** The Option datatype used across the model.
    `None` stands for Python's `None`, or for a conversion that would raise. */
module Wrappers {

  datatype Option<+T> = None | Some(value: T) {

    // The three members below let `:-` stop a decoder at the first missing
    // or malformed value, the way the first exception would in Python.

    predicate IsFailure() {
      None?
    }

    function PropagateFailure<U>(): Option<U>
      requires None?
    {
      None
    }

    function Extract(): T
      requires Some?
    {
      value
    }

    /** The held value, with `default` standing in for a missing one. */
    function GetOr(default: T): T {
      if Some? then value else default
    }
  }
}
